=== FILE: README.md ===
# solid-elections-wrapper, modelled in Dafny

The library finds or creates a folder for an application inside a user's Solid
pod. It records the folder in the user's public type index so the folder can be
found again. It also creates and lists documents in that folder, and it reads
back the purchase and donation records of a form document and adds up their
prices.

The model treats the pod as an immutable map from document URI to the
document's subjects. A subject has a ref, a set of `rdf:type` values, and an
ordered list of predicate/object entries. Every network step of the library is
a pure function on that map:

- `fetchDocument` is a lookup that can reject.
- `save` writes a subject's triples into the stored document. A document names each node once, so the triples are added to the node with the same ref, or the subject is appended when the document has no such node.
- The container POST adds an empty container, or does nothing.

An operation returns a `Transition`: its outcome (`Ok` or `Err`, standing for a
resolved or rejected promise) and the pod after it.

Modules:

- `Outcomes`: `Option`, `Result` and the errors the library lets escape.
- `Search`: `FirstIndex`, the first-match loop behind `findAppSubject`, `getFileRef`, `getSubject` and `getRef`.
- `Paths`: `lastIndexOf('/')`, `substr`, `getFileName`, the parent/slug split of `createAppFolder`, and the `base + "/" + name` join.
- `Triples`: the part of the `tripledoc` pod client the library uses, with the vocabulary URIs as opaque constants.
- `AppStorage`: `initAppStorage` and its helpers, `createAppDocument`, and both `listDocuments` variants. src/appStorage.ts repeats src/index.ts line for line except for `listDocuments`, so one definition models both files.
- `StorageProperties`: lemmas about the discovery-or-creation protocol and the listings.
- `Expenses`: `createExpense`, `getExpenses`, `getSumPrice`, `getFileRef`, `getCandidateInfo`, and the zero-seeded correction.
- `SolidWrapper`: the older `initializeDataFolder` and `addDummyText`.

Behaviours of JavaScript that the model writes out:

- A `getRef` result of `""` is falsy (`Truthy`).
- `null + "public/x"` is `"nullpublic/x"` (`RefText`).
- `substr(0, -1)` is `""`.
- `[].reduce(f)` throws (`EmptyReduce`).

`addSubject({identifier: appName})` returns the node `index#appName`: a new
node, or the existing one when the index already holds it. That is why a
registration written by `registerAppStorage` is the one `findAppSubject` looks
for. When the node exists, saving the registration adds its triples to that
node rather than adding a second node. `getRef` then reads the node's earlier
`solid:instance` ref if it had one, and the new one otherwise.

Two behaviours of the code that are easy to misread:

- `getCandidateInfo` does not answer all zeros when the app folder is absent. src/index.ts:194 calls `initAppStorage(webID, appName, false)`, and that call throws when no folder is registered. So `GetCandidateInfo` rejects with the same error (`AppFolderMissing`).
- The expense round trip holds for every record, including empty strings and a price of 0. The read side's `|| ""` and `|| 0` map an empty string and 0 to themselves.

## Model

| member | source | states |
|---|---|---|
| Search.FirstIndex | src/appStorage.ts:114-119 | the first position whose element satisfies the test, with no earlier one satisfying it; `None` exactly when no element does |
| Paths.LastIndexOf | src/index.ts:214 | -1 exactly when there is no '/'; otherwise a '/' with no '/' after it |
| Paths.FileName | src/index.ts:213-216 | `getFileName` returns a suffix of the path that contains no '/'; it is the whole path when there is no '/' and the part after the last '/' otherwise |
| Paths.SplitPath | src/appStorage.ts:122-125 | with a '/' in the path, `parent + "/" + slug` rebuilds the path and the slug has no '/'; without one, the parent is "" and the slug is the whole path |
| Paths.JoinSplit | src/SolidWrapper.ts:64-66 | a corollary of `SplitPath`, stated with `Join`: the parent/slug split of `createAppFolder` rebuilds any path that contains '/'; `RootedListingsAgree` uses it |
| Paths.SplitJoin | src/index.ts:99-102 | splitting `base + "/" + name`, with no '/' in name, gives back base and name, so the file name of a re-based ref is the original name |
| Triples.Fetch | src/index.ts:27 | `fetchDocument(uri)` succeeds exactly when the pod stores `uri`, and then returns the document named `uri` with the stored subjects; otherwise it rejects with `FetchFailed(uri)`; the same call serves src/index.ts:43, 108, 142 and 200 |
| Triples.SaveSubject | src/index.ts:150 | `save` changes only the saved document: it gains the key when absent, and its subjects become the stored ones with the saved subject merged in; every other document is unchanged; src/SolidWrapper.ts:42 is the same call |
| Triples.GetRef | src/index.ts:39 | `getRef(p)` returns a ref stored under `p` on the subject (the first one, by `FirstObjectAt`), and null exactly when no named-node object is stored under `p`; the same read serves src/index.ts:53 and 107 |
| Triples.GetString | src/index.ts:230 | `getString(p)` returns a string literal stored under `p` (the first one, by `FirstObjectAt`), and null exactly when none is stored under `p` |
| Triples.GetInteger | src/index.ts:232 | `getInteger(p)` returns an integer literal stored under `p` (the first one, by `FirstObjectAt`), and null exactly when none is stored under `p` |
| Triples.FirstObjectAt | src/index.ts:39 | the entry read under a predicate is the first one of the requested kind: an entry with no earlier entry of that kind under the predicate is the value `getRef`, `getString` or `getInteger` returns |
| Triples.SubjectsOfType | src/index.ts:118 | `findSubjects(rdf.type, t)` holds exactly the subjects typed `t` and is no longer than the document; `SubjectsOfTypeAppend` fixes the order |
| Triples.SubjectsOfTypeAppend | src/index.ts:227 | the typed subjects of a concatenation are those of the first part followed by those of the second, so enumeration order is kept (also for `findSubjects` at src/index.ts:98 and 118) |
| Triples.FindSubject | src/SolidWrapper.ts:19 | `findSubject(rdf.type, t)` is null exactly when no subject is typed `t`, and otherwise the first typed subject in enumeration order |
| Triples.GetSubject | src/index.ts:28 | `getSubject(uri)` is the document's subject with that ref when there is one, and otherwise an empty subject with that ref |
| Triples.Merge | src/index.ts:146-150 | after saving `s`, the node named `s.ref` reads as its earlier content plus `s`'s types and entries, every other node reads as before, and the document still names each node once |
| Triples.GetRefCombine | src/index.ts:39 | on a node that gained triples, `getRef` reads the node's own earlier ref under the predicate when it had one, and otherwise the added one |
| AppStorage.LoadProfile | src/index.ts:27-28 | the profile is the subject of the webID's document whose ref is the webID, when there is one; otherwise it is an empty subject with that ref; the call rejects exactly when that document cannot be fetched |
| AppStorage.FetchPublicTypeIndex | src/index.ts:106-109 | the result is null exactly when the profile has no truthy `solid:publicTypeIndex` ref; otherwise it is the stored index document or the fetch's rejection |
| AppStorage.FindAppSubject | src/index.ts:111-125 | the first `TypeRegistration` in enumeration order whose ref is `index#appName`; null exactly when no typed subject has that ref |
| AppStorage.RegisteredLocation | src/index.ts:36-44 | a location is reused exactly when a registration is found and its `solid:instance` ref is truthy; the location is that ref |
| AppStorage.DefaultPath | src/index.ts:53 | the new folder is `storage + "public/" + appName` (with "null" in front when the profile has no storage ref), and it always contains '/' |
| AppStorage.PostContainer | src/SolidWrapper.ts:69-76 | a refused POST (whose error the source swallows) leaves the pod unchanged; an accepted one adds only the key `parent/slug`; no stored document changes |
| AppStorage.CreateAppFolder | src/index.ts:127-143 | after a refused POST the path is still fetched; with a '/' in the path, an accepted POST makes the fetch succeed at that path and only that key can appear |
| AppStorage.Registration | src/appStorage.ts:141-144 | the new registration is named `index#appName`, typed `TypeRegistration`, has `forClass` `solid:instance`, and its `instance` is the given location |
| AppStorage.RegisterAppStorage | src/index.ts:145-151 | the node `index#appName` of the stored index becomes its earlier content plus the registration's types and triples; every other node reads the same; the registration is appended when the index had no such node, and the index keeps its length when it had one; no other document changes |
| AppStorage.InitAppStorage | src/index.ts:26-59 | with `initEmpty` false, nothing is written; a rejection writes nothing; no document is removed; the only stored document that can change is the public type index the profile names (the write on the creation path is stated by `StorageProperties.CreationSavesRegistration`, the reuse path by `StorageProperties.ReuseRegisteredFolder`) |
| AppStorage.CreateAppDocument | src/appStorage.ts:84-87 | an empty local document whose ref is the storage ref, then '/', then `docName`, for every `docName`; when `docName` has no '/', the ref splits back into the storage ref and `docName`, so its file name is `docName` |
| AppStorage.ListDocuments | src/index.ts:97-104 | one entry per `ldp:Resource` subject, each containing '/' |
| AppStorage.ListDocumentRefs | src/appStorage.ts:97-99 | the refs of the `ldp:Resource` subjects, unchanged, in the same order and number; a ref is listed exactly when such a subject carries it |
| StorageProperties.ReuseRegisteredFolder | src/appStorage.ts:35-44 | with a usable registration, the call fetches the registered location, writes nothing, and a repeated call gives the same answer |
| StorageProperties.MissingTypeIndexRejects | src/index.ts:30-33 | the call rejects with the missing-index error exactly when the profile has no truthy type-index ref, and then the pod is unchanged |
| StorageProperties.DisallowedCreationRejects | src/appStorage.ts:47-49 | with no usable registration and `initEmpty` false, the call rejects before any POST or index write |
| StorageProperties.CreationSavesRegistration | src/appStorage.ts:51-58 | the creation path returns the container at `storage + "public/" + appName` and saves a registration for it into the index; nothing else changes except the new container; a failed fetch changes nothing |
| StorageProperties.FoundIsNamed | src/index.ts:111-125 | in an index that names each node once, the registration `findAppSubject` finds is the node `index#appName` |
| StorageProperties.SavedRegistrationIsFound | src/index.ts:145-151 | after the save, `findAppSubject` finds the node `index#appName` holding its earlier content plus the registration |
| StorageProperties.SavedRegistrationLocation | src/index.ts:36-44 | after the save, the reused location is the node's earlier `solid:instance` ref if it had one (usable only if not ""), and otherwise the saved path (usable when not "") |
| StorageProperties.RegisteredInstanceStays | src/appStorage.ts:140-146 | saving a registration never changes a location the index already yields |
| StorageProperties.SavedRegistrationCount | src/appStorage.ts:140-146 | the save adds one `TypeRegistration` subject exactly when `findAppSubject` found none before, and otherwise keeps the count |
| StorageProperties.CreationIsVisible | src/index.ts:53-57 | after a creation, the profile reads back unchanged and the index reads back with the registration saved into it |
| StorageProperties.CreatedFolderIsRediscovered | src/appStorage.ts:26-59 | once a call has created the folder for an index whose node `index#appName` has no instance ref, a later call (even with `initEmpty` false) returns the same location and writes nothing |
| StorageProperties.StaleRegistrationIsRepaired | src/index.ts:36-58 | a found registration without an instance ref is repaired by the first creating call: the container is `storage + "public/" + appName`, no registration is added, and a later call returns that location and writes nothing |
| StorageProperties.ListDocumentsRebases | src/index.ts:98-103 | each entry of the src/index.ts listing splits into the storage ref and the file name of the matching raw ref |
| StorageProperties.RootedListingsAgree | src/appStorage.ts:98 | when every resource already lies directly in the storage, the two listings are equal |
| Expenses.ReadExpense | src/index.ts:228-235 | a field `getString`/`getInteger` finds reads as that first stored value; a string field they find nothing for (no entry, or only a literal of another kind) reads as "" and such a price as 0; a non-zero price comes from a stored `schema:price` |
| Expenses.ExpenseRoundTrip | src/index.ts:158-163 | reading back the subject `createExpense` builds gives exactly the record written |
| Expenses.CreateExpense | src/index.ts:153-166 | the document gains one `BuyAction` subject at the end that reads back as the record; the person gains one `schema:agent` link to it; when the person object belongs to this document, the link is also merged into the document on the person's node (added when absent), and a person from another document leaves the document's other subjects untouched |
| Expenses.GetExpenses | src/index.ts:226-236 | one record per subject of the given type, in enumeration order |
| Expenses.CreatedExpenseIsReadBack | src/index.ts:227-234 | after `createExpense`, the purchases read back as the earlier ones followed by the new record; the donations are unchanged |
| Expenses.FoldPricesIsTotal | src/index.ts:239-241 | the left fold of `reduce` equals the accumulator plus the sum of the prices |
| Expenses.GetSumPrice | src/index.ts:238-242 | the sum of the prices for a non-empty list; a rejection exactly for the empty list |
| Expenses.GetFileRef | src/index.ts:218-224 | the first listed document whose file name is `formName`; undefined exactly when none has that name |
| Expenses.LocateForm | src/index.ts:195-200 | the early empty return happens exactly when no listed document has the form's name; otherwise the fetched form or the fetch's rejection |
| Expenses.Summarise | src/index.ts:200-210 | succeeds exactly when the form has both purchases and donations; then it returns both lists with their price totals |
| Expenses.GetCandidateInfo | src/index.ts:193-211 | whenever `initAppStorage(webID, appName, false)` rejects (a missing storage among them), the call rejects with the same error; an unlisted form gives all zeros; every answer's totals are the sums of its lists |
| Expenses.ListedFormIsSummarised | src/index.ts:196-210 | a listed and fetched form is summarised; the seeded variant agrees whenever the source's answer is a success |
| Expenses.EmptyRecordKindRejects | src/index.ts:201-204 | a listed form lacking purchases or donations makes the call reject with the `reduce` error; the seeded variant answers a zero total for that kind |
| Expenses.OnePurchaseNoDonation | src/index.ts:238-242 | a form with one purchase of 10 and no donation is rejected as written; the seeded sums give 10 and 0 |
| Expenses.AggregationExample | src/index.ts:201-209 | purchases of 10, 20 and 5 and a donation of 100 give three expenses totalling 35 and one donation totalling 100 |
| Expenses.SumPrices | src/index.ts:239-241 | the zero-seeded sum equals the price total on every list, and agrees with `getSumPrice` on non-empty ones |
| Expenses.SummariseSeeded | src/index.ts:201-204 | both lists with their totals, for every form; equal to the source's answer whenever that one succeeds |
| Expenses.GetCandidateInfoSeeded | src/index.ts:193-211 | never rejects with the `reduce` error; equals the source's answer whenever that one succeeds, and succeeds wherever the source hits the `reduce` error |
| SolidWrapper.FirstRegisteredLocation | src/SolidWrapper.ts:18-25 | a location is reused exactly when the first `TypeRegistration` is `index#solidelections` and has a truthy instance; the location is that instance ref |
| SolidWrapper.InitializeDataFolder | src/SolidWrapper.ts:10-46 | null exactly when the profile names no type index, and then nothing is written; no document is removed |
| SolidWrapper.FirstRegistrationIsReused | src/SolidWrapper.ts:20-29 | a reusable first registration is fetched, and nothing is written |
| SolidWrapper.CreationRegistersContainer | src/SolidWrapper.ts:34-42 | otherwise the folder is always `storage + "public/solidelections"`, and a registration whose instance is the fetched container's ref is saved into the index, on the node `index#solidelections`; a failed fetch changes nothing |
| SolidWrapper.LaterRegistrationIsIgnored | src/SolidWrapper.ts:18-20 | when another app's registration comes first, the call creates a container and writes to the index, although `initAppStorage` would reuse the later usable registration without writing; the write keeps that registration's location and adds no registration |
| SolidWrapper.DummyDocRef | src/SolidWrapper.ts:50 | the document `addDummyText` writes lies directly under the container and is named `dummyPerson.ttl` |
| SolidWrapper.DummyPersonReads | src/SolidWrapper.ts:52-54 | the person written reads back with first name John and last name Smith under the generated ref |
| SolidWrapper.AddDummyText | src/SolidWrapper.ts:48-56 | the pod gains exactly the dummy document, holding the single dummy person; no other document changes |

## Left out

- Network transport, authentication and HTTP headers are not modelled. Fetching is a map lookup; the Link, Slug and Content-Type headers are opaque.
- Saving the type index always succeeds in the model. A rejected save, and the orphaned container it would leave, is not modelled.
- The POST result is a parameter (`postAccepted`). An accepted POST creates the container at `parent + "/" + slug` only if nothing is stored there. A server that picks another name, or adds a trailing '/', is not modelled.
- `fetchDocument` is keyed by the exact URI it is given. Fragment stripping (a webID with `#me`) and redirects are not modelled.
- Concurrent callers racing on the type index are not modelled: there is no concurrency primitive in the source to model.
- The ref that `addSubject()` generates for a new subject is a parameter. The model does not check that it is fresh.
- A registration node whose `solid:instance` ref is "" stays unusable after a save: `getRef` keeps reading the node's earlier "" ref. `StorageProperties.SavedRegistrationLocation` states this case; the repair lemmas cover only a node with no instance ref.
- Saving a triple that the node already holds keeps both copies as repeated entries. Reads take the first match, so this does not change what any read returns.
- RDF parsing and serialisation are not modelled, and the `rdf-namespaces` URIs are opaque distinct constants. `getRef`, `getString` and `getInteger` read the first object of their kind under the predicate.
- `console.log` and `console.error` calls are left out.
- Prices are unbounded integers. JavaScript `number` semantics (floats, NaN) are not modelled.
- dist/index.js and dist/index.d.ts are not modelled: they are build output and type declarations of an older src/index.ts.
- The React components in src/App.tsx and src/Dashboard.tsx are not modelled.

## Findings

| source | as written | input that shows it | evidently intended | confidence | as-written member | corrected member |
|---|---|---|---|---|---|---|
| src/index.ts:238-242 | `getSumPrice` calls `reduce` without an initial value, so an empty list throws. `getCandidateInfo` (lines 201-204) passes it the records of each kind, and a form may lack one kind. | a listed form holding one `BuyAction` priced 10 and no `DonateAction` | a zero total for a kind with no records, as lines 197-199 answer zeros when the form is missing | high, not executed | Expenses.OnePurchaseNoDonation | Expenses.GetCandidateInfoSeeded |

=== FILE: app_storage.dfy ===
/** The discovery-or-creation protocol of `initAppStorage` (src/index.ts and
    its line-for-line copy src/appStorage.ts), with the document helpers of
    the same files. Every network step is a transition on the pod: the
    container POST is described by whether the server accepted it. */
module AppStorage {
  import opened Outcomes
  import opened Search
  import opened Triples
  import opened Paths

  /** Whether JavaScript treats a `getRef` result as true: present and not "". */
  predicate Truthy(ref: Option<string>)
  {
    ref.Some? && ref.value != ""
  }

  /** The text JavaScript concatenates for a `getRef` result: `null` reads "null". */
  function RefText(ref: Option<string>): (text: string)
    ensures ref.Some? ==> text == ref.value
  {
    if ref.Some? then ref.value else "null"
  }

  /** `fetchDocument(webID)` then `getSubject(webID)`: the user's profile. */
  function LoadProfile(pod: Pod, webId: string): (r: Result<Subject>)
    ensures r.Ok? <==> webId in pod
    ensures r.Ok? ==> r.value.ref == webId
    ensures r.Ok? ==> || r.value in pod[webId]
                      || (r.value == EmptySubject(webId) && forall t :: t in pod[webId] ==> t.ref != webId)
    ensures r.Ok? && (exists t :: t in pod[webId] && t.ref == webId) ==> r.value in pod[webId]
    ensures r.Err? ==> r.error == FetchFailed(webId)
  {
    match Fetch(pod, webId)
    case Err(e) => Err(e)
    case Ok(profileDoc) => Ok(GetSubject(profileDoc.subjects, webId))
  }

  /** `fetchPublicTypeIndex`: `None` (null) when the profile names no index,
      otherwise the fetched index document or the fetch's rejection. */
  function FetchPublicTypeIndex(pod: Pod, profile: Subject): (r: Result<Option<Document>>)
    ensures !Truthy(GetRef(profile, PublicTypeIndex)) <==> r == Ok(None)
    ensures r.Ok? && r.value.Some? ==>
              r.value.value.ref == GetRef(profile, PublicTypeIndex).value
              && r.value.value.ref in pod && r.value.value.subjects == pod[r.value.value.ref]
    ensures r.Err? ==> Truthy(GetRef(profile, PublicTypeIndex))
                       && r.error == FetchFailed(GetRef(profile, PublicTypeIndex).value)
  {
    var indexRef := GetRef(profile, PublicTypeIndex);
    if !Truthy(indexRef) then Ok(None)
    else match Fetch(pod, indexRef.value)
      case Err(e) => Err(e)
      case Ok(index) => Ok(Some(index))
  }

  /** The ref a registration of `appName` carries in `index`. */
  function AppRef(index: Document, appName: string): string
  {
    index.ref + "#" + appName
  }

  /** The `TypeRegistration` subjects of an index, in enumeration order. */
  function Registrations(index: Document): seq<Subject>
  {
    SubjectsOfType(index.subjects, TypeRegistration)
  }

  /** Registration `i` is the first one whose ref is `index#appName`. */
  predicate FirstRegistrationAt(index: Document, appName: string, i: int)
  {
    var regs := Registrations(index);
    && 0 <= i < |regs|
    && regs[i].ref == AppRef(index, appName)
    && forall j :: 0 <= j < i ==> regs[j].ref != AppRef(index, appName)
  }

  /** `findAppSubject`: the first `TypeRegistration` of the index, in
      enumeration order, whose ref is `index#appName`; `None` stands for null. */
  function FindAppSubject(index: Document, appName: string): (r: Option<Subject>)
    ensures r.None? <==> forall s :: s in index.subjects && TypeRegistration in s.types ==> s.ref != AppRef(index, appName)
    ensures r.Some? ==> r.value in index.subjects && TypeRegistration in r.value.types
                        && r.value.ref == AppRef(index, appName)
    ensures r.Some? ==> exists i :: FirstRegistrationAt(index, appName, i) && r.value == Registrations(index)[i]
  {
    var regs := Registrations(index);
    var appRef := AppRef(index, appName);
    match FirstIndex(regs, (s: Subject) => s.ref == appRef)
    case None =>
      assert forall s :: s in regs ==> s.ref != appRef by {
        forall s | s in regs ensures s.ref != appRef {
          var i :| 0 <= i < |regs| && regs[i] == s;
        }
      }
      None
    case Some(i) =>
      assert regs[i] in regs;
      assert FirstRegistrationAt(index, appName, i);
      Some(regs[i])
  }

  /** The container location a usable registration names: `findAppSubject`
      found one and its `solid:instance` ref is truthy. */
  function RegisteredLocation(index: Document, appName: string): (r: Option<string>)
    ensures r.Some? <==> FindAppSubject(index, appName).Some?
                         && Truthy(GetRef(FindAppSubject(index, appName).value, Instance))
    ensures r.Some? ==> r.value != "" && r.value == GetRef(FindAppSubject(index, appName).value, Instance).value
  {
    var appSubject := FindAppSubject(index, appName);
    if appSubject.Some? && Truthy(GetRef(appSubject.value, Instance)) then
      GetRef(appSubject.value, Instance)
    else None
  }

  /** `profile.getRef(space.storage) + "public/" + appName`. */
  function DefaultPath(profile: Subject, appName: string): (path: string)
    ensures GetRef(profile, Storage).Some? ==> path == GetRef(profile, Storage).value + "public/" + appName
    ensures GetRef(profile, Storage).None? ==> path == "null" + "public/" + appName
    ensures '/' in path
  {
    var path := RefText(GetRef(profile, Storage)) + "public/" + appName;
    assert path[|RefText(GetRef(profile, Storage))| + 6] == '/';
    path
  }

  /** The container POST as the pod sees it: when the server accepts it and
      nothing is stored at `parent/slug` yet, an empty container appears
      there; otherwise the pod does not change. */
  function PostContainer(pod: Pod, parent: string, slug: string, accepted: bool): (p: Pod)
    ensures accepted ==> p.Keys == pod.Keys + {Join(parent, slug)}
    ensures !accepted ==> p == pod
    ensures forall k :: k in pod ==> k in p && p[k] == pod[k]
  {
    var target := Join(parent, slug);
    if accepted && target !in pod then pod[target := []] else pod
  }

  /** `createAppFolder`: POST a container named by the last segment of
      `path` to its parent, swallow a refused POST, then fetch `path`. */
  function CreateAppFolder(pod: Pod, path: string, postAccepted: bool): (t: Transition<Document>)
    ensures !postAccepted ==> t == Transition(Fetch(pod, path), pod)
    ensures '/' in path ==> t.pod.Keys == pod.Keys + (if postAccepted then {path} else {})
    ensures forall k :: k in pod ==> k in t.pod && t.pod[k] == pod[k]
    ensures '/' in path && postAccepted ==> t.result.Ok? && t.result.value.ref == path
    ensures t.result.Ok? ==> t.result.value.ref == path && path in t.pod
    ensures t.result.Err? ==> t.result.error == FetchFailed(path)
  {
    var split := SplitPath(path);
    var pod' := PostContainer(pod, split.parent, split.slug, postAccepted);
    PostAtPath(pod, path, postAccepted);
    Transition(Fetch(pod', path), pod')
  }

  /** POSTing the last segment of a path with a '/' to its parent adds
      exactly that path. */
  lemma PostAtPath(pod: Pod, path: string, accepted: bool)
    ensures '/' in path ==>
              PostContainer(pod, SplitPath(path).parent, SplitPath(path).slug, accepted).Keys
              == pod.Keys + (if accepted then {path} else {})
  {
    if '/' in path {
      JoinSplit(path);
    }
  }

  /** The registration `registerAppStorage` adds: `addSubject({identifier})`
      names it `index#appName`; it is typed `solid:TypeRegistration`, has
      `solid:forClass solid:instance` and `solid:instance location`. */
  function Registration(index: Document, appName: string, location: string): (s: Subject)
    ensures s.ref == AppRef(index, appName)
    ensures TypeRegistration in s.types
    ensures GetRef(s, ForClass) == Some(Instance)
    ensures GetRef(s, Instance) == Some(location)
  {
    var s := Subject(AppRef(index, appName), {TypeRegistration},
                     [Entry(ForClass, Ref(Instance)), Entry(Instance, Ref(location))]);
    VocabularyDistinct();
    assert FirstIndex(s.entries, (e: Entry) => e.pred == Instance && KindOf(e.obj) == RefKind) == Some(1) by {
      FirstIndexUnique(s.entries, (e: Entry) => e.pred == Instance && KindOf(e.obj) == RefKind, 1);
    }
    s
  }

  /** `registerAppStorage`: add the registration's triples to the index and
      save them. `addSubject({identifier: appName})` names the node
      `index#appName`, so an index that already holds that node gains the
      triples on it; otherwise the registration is a new subject. */
  function RegisterAppStorage(pod: Pod, index: Document, appName: string, path: string): (p: Pod)
    requires index.ref in pod
    ensures p.Keys == pod.Keys
    ensures GetSubject(p[index.ref], AppRef(index, appName))
            == Combine(GetSubject(pod[index.ref], AppRef(index, appName)), Registration(index, appName, path))
    ensures forall uri :: uri != AppRef(index, appName) ==> GetSubject(p[index.ref], uri) == GetSubject(pod[index.ref], uri)
    ensures (forall t :: t in pod[index.ref] ==> t.ref != AppRef(index, appName)) ==>
              p[index.ref] == pod[index.ref] + [Registration(index, appName, path)]
    ensures (exists t :: t in pod[index.ref] && t.ref == AppRef(index, appName)) ==> |p[index.ref]| == |pod[index.ref]|
    ensures p[index.ref] == Merge(pod[index.ref], Registration(index, appName, path))
    ensures forall k :: k in pod && k != index.ref ==> p[k] == pod[k]
  {
    SaveSubject(pod, index.ref, Registration(index, appName, path))
  }

  /** `initAppStorage(webID, appName, initEmpty)`. */
  function InitAppStorage(pod: Pod, webId: string, appName: string, initEmpty: bool,
                          postAccepted: bool): (t: Transition<Document>)
    ensures !initEmpty ==> t.pod == pod
    ensures t.result.Err? ==> t.pod == pod
    ensures t.result.Err? ==> t.result.error != EmptyReduce
    ensures forall k :: k in pod ==> k in t.pod
    ensures forall k :: k in pod && t.pod[k] != pod[k] ==>
              && LoadProfile(pod, webId).Ok?
              && FetchPublicTypeIndex(pod, LoadProfile(pod, webId).value) == Ok(Some(Document(k, pod[k])))
  {
    match LoadProfile(pod, webId)
    case Err(e) => Transition(Err(e), pod)
    case Ok(profile) =>
      match FetchPublicTypeIndex(pod, profile)
      case Err(e) => Transition(Err(e), pod)
      case Ok(None) => Transition(Err(TypeIndexMissing), pod)
      case Ok(Some(index)) =>
        var location := RegisteredLocation(index, appName);
        if location.Some? then Transition(Fetch(pod, location.value), pod)
        else if !initEmpty then Transition(Err(AppFolderMissing), pod)
        else
          var path := DefaultPath(profile, appName);
          var created := CreateAppFolder(pod, path, postAccepted);
          if created.result.Err? then created
          else Transition(created.result, RegisterAppStorage(created.pod, index, appName, path))
  }

  /** `createAppDocument`: a local, unsaved, empty document named
      `storage/docName`. */
  function CreateAppDocument(storage: Document, docName: string): (d: Document)
    ensures d.subjects == []
    ensures |d.ref| == |storage.ref| + 1 + |docName|
    ensures d.ref[..|storage.ref|] == storage.ref
    ensures d.ref[|storage.ref|] == '/'
    ensures d.ref[|storage.ref| + 1..] == docName
    ensures '/' !in docName ==> SplitPath(d.ref) == Split(storage.ref, docName)
    ensures '/' !in docName ==> FileName(d.ref) == docName
  {
    var d := Document(Join(storage.ref, docName), []);
    if '/' in docName then d else SplitJoin(storage.ref, docName); d
  }

  /** `listDocuments` of src/index.ts: for every `ldp:Resource` subject of the
      storage, its file name re-joined under the storage's own ref. */
  function ListDocuments(storage: Document): (refs: seq<string>)
    ensures |refs| == |SubjectsOfType(storage.subjects, Resource)|
    ensures forall d :: d in refs ==> '/' in d
  {
    var resources := SubjectsOfType(storage.subjects, Resource);
    seq(|resources|, i requires 0 <= i < |resources| => Join(storage.ref, FileName(resources[i].ref)))
  }

  /** `listDocuments` of src/appStorage.ts: the refs of the `ldp:Resource`
      subjects, unchanged. */
  function ListDocumentRefs(storage: Document): (refs: seq<string>)
    ensures |refs| == |SubjectsOfType(storage.subjects, Resource)|
    ensures forall i :: 0 <= i < |refs| ==> refs[i] == SubjectsOfType(storage.subjects, Resource)[i].ref
    ensures forall u :: u in refs <==> exists s :: s in storage.subjects && Resource in s.types && s.ref == u
  {
    var resources := SubjectsOfType(storage.subjects, Resource);
    var refs := seq(|resources|, i requires 0 <= i < |resources| => resources[i].ref);
    assert forall s :: s in resources ==> s.ref in refs by {
      forall s | s in resources ensures s.ref in refs {
        var i :| 0 <= i < |resources| && resources[i] == s;
        assert refs[i] == s.ref;
      }
    }
    refs
  }
}

=== FILE: expenses.dfy ===
/** The expense records of src/index.ts: `createExpense` writes a buy action,
    `getExpenses` reads typed records back, `getSumPrice` adds their prices
    and `getCandidateInfo` puts the two record kinds of one form together. */
module Expenses {
  import opened Outcomes
  import opened Search
  import opened Triples
  import opened Paths
  import opened AppStorage

  datatype Expense = Expense(identifier: string, description: string, price: int, priceCurrency: string)

  datatype CandidateInfo = CandidateInfo(expenses: seq<Expense>, donations: seq<Expense>,
                                         totalExpenses: int, totalDonations: int)

  /** The answer `getCandidateInfo` gives when the form is not in the storage. */
  const NoCandidateInfo := CandidateInfo([], [], 0, 0)

  /** `getString(p) || ""`: a missing (or empty) string reads as "". */
  function StringOrEmpty(text: Option<string>): string
  {
    if text.Some? && text.value != "" then text.value else ""
  }

  /** `getInteger(p) || 0`: a missing (or zero) integer reads as 0. */
  function IntegerOrZero(number: Option<int>): int
  {
    if number.Some? && number.value != 0 then number.value else 0
  }

  /** The record `getExpenses` builds from one subject. */
  function ReadExpense(s: Subject): (e: Expense)
    ensures GetString(s, Identifier).None? ==> e.identifier == ""
    ensures GetString(s, Description).None? ==> e.description == ""
    ensures GetInteger(s, Price).None? ==> e.price == 0
    ensures GetString(s, PriceCurrency).None? ==> e.priceCurrency == ""
    ensures e.price != 0 ==> Entry(Price, Int(e.price)) in s.entries
    ensures GetString(s, Identifier).Some? ==> e.identifier == GetString(s, Identifier).value
    ensures GetString(s, Description).Some? ==> e.description == GetString(s, Description).value
    ensures GetInteger(s, Price).Some? ==> e.price == GetInteger(s, Price).value
    ensures GetString(s, PriceCurrency).Some? ==> e.priceCurrency == GetString(s, PriceCurrency).value
  {
    Expense(StringOrEmpty(GetString(s, Identifier)),
            StringOrEmpty(GetString(s, Description)),
            IntegerOrZero(GetInteger(s, Price)),
            StringOrEmpty(GetString(s, PriceCurrency)))
  }

  /** The buy-action subject `createExpense` builds: typed `schema:BuyAction`,
      one triple per field. */
  function ExpenseSubject(actionRef: string, e: Expense): Subject
  {
    Subject(actionRef, {BuyAction},
            [Entry(Identifier, Str(e.identifier)), Entry(Description, Str(e.description)),
             Entry(Price, Int(e.price)), Entry(PriceCurrency, Str(e.priceCurrency))])
  }

  /** Reading back what `createExpense` wrote gives the record written. */
  lemma ExpenseRoundTrip(actionRef: string, e: Expense)
    ensures ReadExpense(ExpenseSubject(actionRef, e)) == e
  {
    var s := ExpenseSubject(actionRef, e);
    VocabularyDistinct();
    FirstObjectAt(s, Identifier, StrKind, 0);
    FirstObjectAt(s, Description, StrKind, 1);
    FirstObjectAt(s, Price, IntKind, 2);
    FirstObjectAt(s, PriceCurrency, StrKind, 3);
  }

  /** The document, the person and the new buy action after `createExpense`
      (nothing is saved yet). */
  datatype ExpenseWrite = ExpenseWrite(doc: Document, person: Subject, action: Subject)

  /** The triple `person.addRef(schema.agent, action)` adds, as a subject
      named by the person. */
  function AgentLink(personRef: string, actionRef: string): Subject
  {
    Subject(personRef, {}, [Entry(Agent, Ref(actionRef))])
  }

  /** The subjects of `doc` once `person.addRef(schema.agent, action)` has
      run on a person of the document `personDocRef`. */
  function LinkAgent(doc: Document, personRef: string, personDocRef: string, actionRef: string): (r: seq<Subject>)
    ensures personDocRef != doc.ref ==> r == doc.subjects
    ensures personDocRef == doc.ref ==> r == Merge(doc.subjects, AgentLink(personRef, actionRef))
  {
    if personDocRef == doc.ref then Merge(doc.subjects, AgentLink(personRef, actionRef)) else doc.subjects
  }

  /** `createExpense(doc, person, data)`; `actionRef` is the ref the pod client
      generates for the new subject and `personDocRef` is the document the
      `person` object belongs to. `person.addRef(schema.agent, action)`
      writes to that document: when it is `doc`, the triple is merged into
      `doc` on the node named by the person (added when `doc` has no such
      node); otherwise `doc` gains only the action and the returned person
      carries the link. */
  function CreateExpense(doc: Document, person: Subject, personDocRef: string, actionRef: string,
                         e: Expense): (w: ExpenseWrite)
    ensures w.doc.ref == doc.ref
    ensures |w.doc.subjects| > 0 && w.doc.subjects[|w.doc.subjects| - 1] == w.action
    ensures personDocRef != doc.ref ==> w.doc.subjects == doc.subjects + [w.action]
    ensures personDocRef == doc.ref ==>
              w.doc.subjects == Merge(doc.subjects, AgentLink(person.ref, actionRef)) + [w.action]
    ensures w.action.ref == actionRef && w.action.types == {BuyAction}
    ensures w.person == Subject(person.ref, person.types, person.entries + [Entry(Agent, Ref(actionRef))])
    ensures ReadExpense(w.action) == e
  {
    var action := ExpenseSubject(actionRef, e);
    ExpenseRoundTrip(actionRef, e);
    ExpenseWrite(Document(doc.ref, LinkAgent(doc, person.ref, personDocRef, actionRef) + [action]),
                 Subject(person.ref, person.types, person.entries + [Entry(Agent, Ref(actionRef))]),
                 action)
  }

  /** `getExpenses(form, type)`: one record per subject typed `type`, in order. */
  function GetExpenses(form: Document, t: string): (es: seq<Expense>)
    ensures |es| == |SubjectsOfType(form.subjects, t)|
    ensures forall i :: 0 <= i < |es| ==> es[i] == ReadExpense(SubjectsOfType(form.subjects, t)[i])
  {
    var typed := SubjectsOfType(form.subjects, t);
    seq(|typed|, i requires 0 <= i < |typed| => ReadExpense(typed[i]))
  }

  /** Appending a subject appends its record to the records of its types. */
  lemma GetExpensesAppend(doc: Document, s: Subject, t: string)
    ensures GetExpenses(Document(doc.ref, doc.subjects + [s]), t)
            == GetExpenses(doc, t) + (if t in s.types then [ReadExpense(s)] else [])
  {
    SubjectsOfTypeAppend(doc.subjects, [s], t);
    var typed := SubjectsOfType(doc.subjects, t);
    var typed' := SubjectsOfType(doc.subjects + [s], t);
    assert SubjectsOfType([s], t) == IfTyped(s, t);
    assert typed' == typed + IfTyped(s, t);
  }

  /** A new buy action is read back as one more expense, after the earlier
      ones, and leaves the donations alone. */
  lemma CreatedExpenseIsReadBack(doc: Document, person: Subject, personDocRef: string,
                                 actionRef: string, e: Expense)
    ensures var w := CreateExpense(doc, person, personDocRef, actionRef, e);
            && GetExpenses(w.doc, BuyAction) == GetExpenses(doc, BuyAction) + [e]
            && GetExpenses(w.doc, DonateAction) == GetExpenses(doc, DonateAction)
  {
    var w := CreateExpense(doc, person, personDocRef, actionRef, e);
    VocabularyDistinct();
    var linked := Document(doc.ref, w.doc.subjects[..|w.doc.subjects| - 1]);
    assert w.doc == Document(doc.ref, linked.subjects + [w.action]);
    GetExpensesAppend(linked, w.action, BuyAction);
    GetExpensesAppend(linked, w.action, DonateAction);
    if personDocRef == doc.ref {
      LinkKeepsExpenses(doc, person.ref, actionRef, BuyAction);
      LinkKeepsExpenses(doc, person.ref, actionRef, DonateAction);
    }
  }

  /** Merging an agent link into a document leaves the records of every
      type unchanged. */
  lemma LinkKeepsExpenses(doc: Document, personRef: string, actionRef: string, t: string)
    ensures GetExpenses(Document(doc.ref, Merge(doc.subjects, AgentLink(personRef, actionRef))), t)
            == GetExpenses(doc, t)
  {
    var link := AgentLink(personRef, actionRef);
    match SubjectAt(doc.subjects, personRef)
    case None =>
      GetExpensesAppend(doc, link, t);
    case Some(i) =>
      LinkKeepsRecord(doc.subjects[i], personRef, actionRef);
      GetExpensesUpdate(doc, i, Combine(doc.subjects[i], link), t);
  }

  /** The records of two runs of subjects are the records of the first run,
      then those of the second. */
  lemma GetExpensesConcat(docRef: string, a: seq<Subject>, b: seq<Subject>, t: string)
    ensures GetExpenses(Document(docRef, a + b), t)
            == GetExpenses(Document(docRef, a), t) + GetExpenses(Document(docRef, b), t)
  {
    SubjectsOfTypeAppend(a, b, t);
  }

  /** Adding an agent link to a node changes neither its types nor the
      record read from it. */
  lemma LinkKeepsRecord(node: Subject, personRef: string, actionRef: string)
    ensures Combine(node, AgentLink(personRef, actionRef)).types == node.types
    ensures ReadExpense(Combine(node, AgentLink(personRef, actionRef))) == ReadExpense(node)
  {
    var x := Combine(node, AgentLink(personRef, actionRef));
    VocabularyDistinct();
    LinkKeepsField(node, personRef, actionRef, Identifier, StrKind);
    LinkKeepsField(node, personRef, actionRef, Description, StrKind);
    LinkKeepsField(node, personRef, actionRef, Price, IntKind);
    LinkKeepsField(node, personRef, actionRef, PriceCurrency, StrKind);
    assert GetString(x, Identifier) == GetString(node, Identifier);
    assert GetString(x, Description) == GetString(node, Description);
    assert GetInteger(x, Price) == GetInteger(node, Price);
    assert GetString(x, PriceCurrency) == GetString(node, PriceCurrency);
  }

  /** Under any predicate other than `schema:agent`, a linked node reads
      what it read before. */
  lemma LinkKeepsField(node: Subject, personRef: string, actionRef: string, pred: string, kind: Kind)
    requires pred != Agent
    ensures FirstObject(Combine(node, AgentLink(personRef, actionRef)), pred, kind) == FirstObject(node, pred, kind)
  {
    var link := AgentLink(personRef, actionRef);
    assert FirstObject(link, pred, kind).None?;
    FirstObjectCombine(node, link, pred, kind);
  }

  /** Replacing a subject by one with the same types and the same record
      leaves the records of every type unchanged. */
  lemma GetExpensesUpdate(doc: Document, i: nat, x: Subject, t: string)
    requires i < |doc.subjects|
    requires x.types == doc.subjects[i].types && ReadExpense(x) == ReadExpense(doc.subjects[i])
    ensures GetExpenses(Document(doc.ref, doc.subjects[i := x]), t) == GetExpenses(doc, t)
  {
    var node := doc.subjects[i];
    var before, after := doc.subjects[..i], doc.subjects[i + 1..];
    GetExpensesSingle(doc.ref, node, t);
    GetExpensesSingle(doc.ref, x, t);
    UpdateSplit(doc.subjects, i, x);
    UpdateSplit(doc.subjects, i, node);
    assert doc.subjects[i := node] == doc.subjects;
    GetExpensesAround(doc.ref, before, node, after, t);
    GetExpensesAround(doc.ref, before, x, after, t);
  }

  /** The records around one subject: those before it, its own, those after. */
  lemma GetExpensesAround(docRef: string, before: seq<Subject>, y: Subject, after: seq<Subject>, t: string)
    ensures GetExpenses(Document(docRef, before + ([y] + after)), t)
            == GetExpenses(Document(docRef, before), t)
               + (GetExpenses(Document(docRef, [y]), t) + GetExpenses(Document(docRef, after), t))
  {
    GetExpensesConcat(docRef, before, [y] + after, t);
    GetExpensesConcat(docRef, [y], after, t);
  }

  /** A sequence with one element replaced, as three runs. */
  lemma UpdateSplit(ss: seq<Subject>, i: nat, x: Subject)
    requires i < |ss|
    ensures ss[i := x] == ss[..i] + ([x] + ss[i + 1..])
  {
  }

  /** The records of a single subject. */
  lemma GetExpensesSingle(docRef: string, s: Subject, t: string)
    ensures GetExpenses(Document(docRef, [s]), t) == if t in s.types then [ReadExpense(s)] else []
  {
    assert [s][1..] == [];
  }

  /** The sum of the prices, as the reference the aggregate is checked against. */
  function PriceTotal(es: seq<Expense>): int
  {
    if |es| == 0 then 0 else es[0].price + PriceTotal(es[1..])
  }

  /** `reduce((acc, x) => acc + x)` continued from the accumulator `acc`. */
  function FoldPrices(acc: int, es: seq<Expense>): int
    decreases es
  {
    if |es| == 0 then acc else FoldPrices(acc + es[0].price, es[1..])
  }

  /** The left fold adds up to the accumulator plus the price total. */
  lemma {:induction false} FoldPricesIsTotal(acc: int, es: seq<Expense>)
    ensures FoldPrices(acc, es) == acc + PriceTotal(es)
    decreases es
  {
    if |es| > 0 {
      FoldPricesIsTotal(acc + es[0].price, es[1..]);
    }
  }

  /** `getSumPrice`: the unseeded `reduce` starts from the first price and
      throws on an empty list. */
  function GetSumPrice(es: seq<Expense>): (r: Result<int>)
    ensures r.Err? <==> |es| == 0
    ensures r.Err? ==> r.error == EmptyReduce
    ensures r.Ok? ==> r.value == PriceTotal(es)
  {
    if |es| == 0 then Err(EmptyReduce)
    else
      FoldPricesIsTotal(es[0].price, es[1..]);
      Ok(FoldPrices(es[0].price, es[1..]))
  }

  /** The sum with an explicit zero seed, defined on every list. */
  function SumPrices(es: seq<Expense>): (total: int)
    ensures total == PriceTotal(es)
    ensures |es| > 0 ==> GetSumPrice(es) == Ok(total)
  {
    FoldPricesIsTotal(0, es);
    FoldPrices(0, es)
  }

  /** Document `i` is the first listed one whose file name is `filename`. */
  predicate FirstNamedAt(documents: seq<string>, filename: string, i: int)
  {
    && 0 <= i < |documents|
    && FileName(documents[i]) == filename
    && forall j :: 0 <= j < i ==> FileName(documents[j]) != filename
  }

  /** `getFileRef`: the first listed document whose file name is `filename`. */
  function GetFileRef(documents: seq<string>, filename: string): (r: Option<string>)
    ensures r.None? <==> forall i :: 0 <= i < |documents| ==> FileName(documents[i]) != filename
    ensures r.Some? ==> r.value in documents && FileName(r.value) == filename
    ensures r.Some? ==> exists i :: FirstNamedAt(documents, filename, i) && documents[i] == r.value
  {
    match FirstIndex(documents, (d: string) => FileName(d) == filename)
    case None => None
    case Some(i) =>
      assert FirstNamedAt(documents, filename, i);
      Some(documents[i])
  }

  /** Lines 201-210 of `getCandidateInfo`: both record kinds of the fetched
      form, each with the total of its prices. */
  function Summarise(form: Document): (r: Result<CandidateInfo>)
    ensures r.Err? <==> |GetExpenses(form, BuyAction)| == 0 || |GetExpenses(form, DonateAction)| == 0
    ensures r.Err? ==> r.error == EmptyReduce
    ensures r.Ok? ==> && r.value.expenses == GetExpenses(form, BuyAction)
                      && r.value.donations == GetExpenses(form, DonateAction)
                      && r.value.totalExpenses == PriceTotal(r.value.expenses)
                      && r.value.totalDonations == PriceTotal(r.value.donations)
  {
    var expenses := GetExpenses(form, BuyAction);
    match GetSumPrice(expenses)
    case Err(e) => Err(e)
    case Ok(totalExpenses) =>
      var donations := GetExpenses(form, DonateAction);
      match GetSumPrice(donations)
      case Err(e) => Err(e)
      case Ok(totalDonations) => Ok(CandidateInfo(expenses, donations, totalExpenses, totalDonations))
  }

  /** Lines 195-200 of `getCandidateInfo`: list the storage, look the form
      up by file name and fetch it. `Ok(None)` is the early return for a form
      that is not listed. */
  function LocateForm(pod: Pod, storage: Document, formName: string): (r: Result<Option<Document>>)
    ensures r == Ok(None) <==> GetFileRef(ListDocuments(storage), formName).None?
    ensures r.Ok? && r.value.Some? ==>
              && GetFileRef(ListDocuments(storage), formName) == Some(r.value.value.ref)
              && r.value.value.ref in pod && r.value.value.subjects == pod[r.value.value.ref]
    ensures r.Err? ==> && GetFileRef(ListDocuments(storage), formName).Some?
                       && r.error == FetchFailed(GetFileRef(ListDocuments(storage), formName).value)
  {
    var fileRef := GetFileRef(ListDocuments(storage), formName);
    if fileRef.None? || fileRef.value == "" then Ok(None)
    else match Fetch(pod, fileRef.value)
      case Err(e) => Err(e)
      case Ok(form) => Ok(Some(form))
  }

  /** `getCandidateInfo(webID, appName, formName)`: the storage must already
      exist; a missing storage rejects like `initAppStorage` does. */
  function GetCandidateInfo(pod: Pod, webId: string, appName: string, formName: string): (r: Result<CandidateInfo>)
    ensures InitAppStorage(pod, webId, appName, false, false).result.Err? ==>
              r == Err(InitAppStorage(pod, webId, appName, false, false).result.error)
    ensures InitAppStorage(pod, webId, appName, false, false).result.Ok? ==>
              var storage := InitAppStorage(pod, webId, appName, false, false).result.value;
              GetFileRef(ListDocuments(storage), formName).None? ==> r == Ok(NoCandidateInfo)
    ensures r.Ok? ==> r.value.totalExpenses == PriceTotal(r.value.expenses)
                      && r.value.totalDonations == PriceTotal(r.value.donations)
  {
    match InitAppStorage(pod, webId, appName, false, false).result
    case Err(e) => Err(e)
    case Ok(storage) =>
      match LocateForm(pod, storage, formName)
      case Err(e) => Err(e)
      case Ok(None) => Ok(NoCandidateInfo)
      case Ok(Some(form)) => Summarise(form)
  }

  /** `Summarise` with zero-seeded sums: an empty record kind totals 0. */
  function SummariseSeeded(form: Document): (info: CandidateInfo)
    ensures info.expenses == GetExpenses(form, BuyAction)
    ensures info.donations == GetExpenses(form, DonateAction)
    ensures info.totalExpenses == PriceTotal(info.expenses)
    ensures info.totalDonations == PriceTotal(info.donations)
    ensures Summarise(form).Ok? ==> Summarise(form) == Ok(info)
  {
    var expenses := GetExpenses(form, BuyAction);
    var donations := GetExpenses(form, DonateAction);
    CandidateInfo(expenses, donations, SumPrices(expenses), SumPrices(donations))
  }

  /** `getCandidateInfo` as evidently intended: a form lacking one record
      kind yields a zero total for it instead of a rejection. */
  function GetCandidateInfoSeeded(pod: Pod, webId: string, appName: string, formName: string): (r: Result<CandidateInfo>)
    ensures r.Err? ==> r.error != EmptyReduce
    ensures GetCandidateInfo(pod, webId, appName, formName).Ok? ==> r == GetCandidateInfo(pod, webId, appName, formName)
    ensures GetCandidateInfo(pod, webId, appName, formName) == Err(EmptyReduce) ==> r.Ok?
  {
    match InitAppStorage(pod, webId, appName, false, false).result
    case Err(e) => Err(e)
    case Ok(storage) =>
      match LocateForm(pod, storage, formName)
      case Err(e) => Err(e)
      case Ok(None) => Ok(NoCandidateInfo)
      case Ok(Some(form)) => Ok(SummariseSeeded(form))
  }

  /** A form that is listed and fetched is summarised, and the zero-seeded
      variant agrees whenever the source's answer is a success. */
  lemma ListedFormIsSummarised(pod: Pod, webId: string, appName: string, formName: string,
                               storage: Document, form: Document)
    requires InitAppStorage(pod, webId, appName, false, false).result == Ok(storage)
    requires LocateForm(pod, storage, formName) == Ok(Some(form))
    ensures GetCandidateInfo(pod, webId, appName, formName) == Summarise(form)
    ensures GetCandidateInfoSeeded(pod, webId, appName, formName) == Ok(SummariseSeeded(form))
  {
  }

  /** As written, a listed form without donations (or without purchases)
      makes `getCandidateInfo` reject with the `reduce` error; the seeded
      variant answers with a zero total for the empty kind. */
  lemma EmptyRecordKindRejects(pod: Pod, webId: string, appName: string, formName: string,
                               storage: Document, form: Document)
    requires InitAppStorage(pod, webId, appName, false, false).result == Ok(storage)
    requires LocateForm(pod, storage, formName) == Ok(Some(form))
    requires GetExpenses(form, BuyAction) == [] || GetExpenses(form, DonateAction) == []
    ensures GetCandidateInfo(pod, webId, appName, formName) == Err(EmptyReduce)
    ensures var info := GetCandidateInfoSeeded(pod, webId, appName, formName);
            && info.Ok?
            && (GetExpenses(form, BuyAction) == [] ==> info.value.totalExpenses == 0)
            && (GetExpenses(form, DonateAction) == [] ==> info.value.totalDonations == 0)
  {
  }

  /** A buy action of the given price, with no other field. */
  function PricedAction(ref: string, t: string, price: int): Subject
  {
    Subject(ref, {t}, [Entry(Price, Int(price))])
  }

  /** A priced action reads back with its price. */
  lemma PricedActionReads(ref: string, t: string, price: int)
    ensures ReadExpense(PricedAction(ref, t, price)).price == price
  {
    FirstObjectAt(PricedAction(ref, t, price), Price, IntKind, 0);
  }

  /** The input that shows the unseeded sum failing: one purchase of 10 and
      no donation. */
  lemma OnePurchaseNoDonation()
    ensures var form := Document("form", [PricedAction("form#a", BuyAction, 10)]);
            && Summarise(form) == Err(EmptyReduce)
            && SummariseSeeded(form).totalExpenses == 10
            && SummariseSeeded(form).totalDonations == 0
  {
    var form := Document("form", [PricedAction("form#a", BuyAction, 10)]);
    VocabularyDistinct();
    assert SubjectsOfType(form.subjects, DonateAction) == [];
    assert SubjectsOfType(form.subjects, BuyAction) == form.subjects;
    PricedActionReads("form#a", BuyAction, 10);
  }

  /** The typed subjects of a non-empty list: its head if typed, then the
      rest's. */
  lemma SubjectsOfTypeCons(s: Subject, rest: seq<Subject>, t: string)
    ensures SubjectsOfType([s] + rest, t) == IfTyped(s, t) + SubjectsOfType(rest, t)
  {
    assert ([s] + rest)[1..] == rest;
  }

  /** The typed subjects of a two-subject list. */
  lemma SubjectsOfTypeTwo(c: Subject, d: Subject, t: string)
    ensures SubjectsOfType([c, d], t) == IfTyped(c, t) + IfTyped(d, t)
  {
    assert [c, d] == [c] + [d];
    SubjectsOfTypeCons(c, [d], t);
    assert [d] == [d] + [];
    SubjectsOfTypeCons(d, [], t);
  }

  /** The typed subjects of a three-subject list. */
  lemma SubjectsOfTypeThree(b: Subject, c: Subject, d: Subject, t: string)
    ensures SubjectsOfType([b, c, d], t) == IfTyped(b, t) + (IfTyped(c, t) + IfTyped(d, t))
  {
    assert [b, c, d] == [b] + [c, d];
    SubjectsOfTypeCons(b, [c, d], t);
    SubjectsOfTypeTwo(c, d, t);
  }

  /** The typed subjects of a four-subject list, one subject at a time. */
  lemma SubjectsOfTypeFour(a: Subject, b: Subject, c: Subject, d: Subject, t: string)
    ensures SubjectsOfType([a, b, c, d], t) == IfTyped(a, t) + (IfTyped(b, t) + (IfTyped(c, t) + IfTyped(d, t)))
  {
    assert [a, b, c, d] == [a] + [b, c, d];
    SubjectsOfTypeCons(a, [b, c, d], t);
    SubjectsOfTypeThree(b, c, d, t);
  }

  /** The typed subjects of the aggregation example, for any two distinct
      type names. */
  lemma ExampleTyping(a: Subject, b: Subject, c: Subject, d: Subject, buy: string, donate: string)
    requires buy != donate
    requires a.types == b.types == d.types == {buy} && c.types == {donate}
    ensures SubjectsOfType([a, b, c, d], buy) == [a, b, d]
    ensures SubjectsOfType([a, b, c, d], donate) == [c]
  {
    SubjectsOfTypeFour(a, b, c, d, buy);
    SubjectsOfTypeFour(a, b, c, d, donate);
    assert IfTyped(a, buy) == [a] && IfTyped(b, buy) == [b] && IfTyped(c, buy) == [] && IfTyped(d, buy) == [d];
    assert IfTyped(a, donate) == [] && IfTyped(b, donate) == [] && IfTyped(c, donate) == [c] && IfTyped(d, donate) == [];
  }

  /** Three purchases and one donation, in any order of refs and prices:
      both kinds are read back in document order. */
  lemma SummariseThreeAndOne(a: Subject, b: Subject, c: Subject, d: Subject)
    requires a.types == b.types == d.types == {BuyAction} && c.types == {DonateAction}
    ensures var r := Summarise(Document("form", [a, b, c, d]));
            && r.Ok?
            && |r.value.expenses| == 3 && |r.value.donations| == 1
            && r.value.expenses[0] == ReadExpense(a)
            && r.value.expenses[1] == ReadExpense(b)
            && r.value.expenses[2] == ReadExpense(d)
            && r.value.donations[0] == ReadExpense(c)
  {
    VocabularyDistinct();
    ExampleTyping(a, b, c, d, BuyAction, DonateAction);
  }

  /** Purchases of 10, 20 and 5 and one donation of 100 total 35 and 100. */
  lemma AggregationExample()
    ensures var form := Document("form", [PricedAction("form#a", BuyAction, 10),
                                          PricedAction("form#b", BuyAction, 20),
                                          PricedAction("form#c", DonateAction, 100),
                                          PricedAction("form#d", BuyAction, 5)]);
            var r := Summarise(form);
            && r.Ok?
            && |r.value.expenses| == 3 && |r.value.donations| == 1
            && r.value.totalExpenses == 35 && r.value.totalDonations == 100
  {
    var a := PricedAction("form#a", BuyAction, 10);
    var b := PricedAction("form#b", BuyAction, 20);
    var c := PricedAction("form#c", DonateAction, 100);
    var d := PricedAction("form#d", BuyAction, 5);
    SummariseThreeAndOne(a, b, c, d);
    PricedActionReads("form#a", BuyAction, 10);
    PricedActionReads("form#b", BuyAction, 20);
    PricedActionReads("form#c", DonateAction, 100);
    PricedActionReads("form#d", BuyAction, 5);
    var r := Summarise(Document("form", [a, b, c, d]));
    PriceTotalOfThree(r.value.expenses);
    PriceTotalOfOne(r.value.donations);
  }

  lemma PriceTotalOfThree(es: seq<Expense>)
    requires |es| == 3
    ensures PriceTotal(es) == es[0].price + es[1].price + es[2].price
  {
    assert PriceTotal(es[2..]) == es[2].price by {
      assert es[2..][1..] == [];
    }
    assert es[1..][1..] == es[2..];
  }

  lemma PriceTotalOfOne(es: seq<Expense>)
    requires |es| == 1
    ensures PriceTotal(es) == es[0].price
  {
    assert es[1..] == [];
  }
}

=== FILE: outcomes.dfy ===
/** Option and Result types shared by every module of the model. A `Result`
    stands for a promise: it either resolves with a value or rejects with one
    of the errors the library lets escape. */
module Outcomes {

  datatype Option<+T> = None | Some(value: T)

  /** Why a call of the library rejects. */
  datatype Error =
    | FetchFailed(uri: string)  // the pod client could not fetch the document at `uri`
    | TypeIndexMissing          // the profile names no public type index
    | AppFolderMissing          // no usable registration, and creation was not allowed
    | EmptyReduce               // `reduce` without an initial value on an empty array

  datatype Result<+T> = Ok(value: T) | Err(error: Error)
}

=== FILE: paths.dfy ===
/** The path helpers the library builds from `lastIndexOf('/')` and `substr`. */
module Paths {

  /** `s.lastIndexOf(c)`: the last position of `c` in `s`, or -1. */
  function LastIndexOf(s: string, c: char): (r: int)
    ensures -1 <= r < |s|
    ensures r == -1 <==> c !in s
    ensures 0 <= r ==> s[r] == c && c !in s[r + 1..]
  {
    if |s| == 0 then -1
    else if s[|s| - 1] == c then |s| - 1
    else
      var prefix := s[..|s| - 1];
      var r := LastIndexOf(prefix, c);
      assert s == prefix + [s[|s| - 1]];
      InSnoc(prefix, s[|s| - 1], c);
      if r == -1 then r
      else
        assert s[r + 1..] == prefix[r + 1..] + [s[|s| - 1]];
        InSnoc(prefix[r + 1..], s[|s| - 1], c);
        r
  }

  /** A character is in `prefix + [x]` exactly when it is in `prefix` or is `x`. */
  lemma InSnoc(prefix: string, x: char, c: char)
    ensures c in prefix + [x] <==> c in prefix || c == x
  {
    var s := prefix + [x];
    if c in s && c != x {
      var i :| 0 <= i < |s| && s[i] == c;
      assert s[i] == prefix[i];
    }
    if c in prefix {
      var i :| 0 <= i < |prefix| && prefix[i] == c;
      assert s[i] == c;
    }
  }

  /** `s.substr(start)` for a non-negative `start`: the suffix from `start`. */
  function SuffixFrom(s: string, start: nat): string
  {
    if start <= |s| then s[start..] else []
  }

  /** `s.substr(0, length)`: a negative length gives the empty string. */
  function PrefixOf(s: string, length: int): string
  {
    if length <= 0 then [] else if length <= |s| then s[..length] else s
  }

  /** `getFileName`: what follows the last '/', or the whole path without one. */
  function FileName(path: string): (name: string)
    ensures '/' !in name
    ensures |name| <= |path| && path[|path| - |name|..] == name
    ensures '/' !in path ==> name == path
    ensures '/' in path ==> |name| < |path| && path[|path| - |name| - 1] == '/'
  {
    SuffixFrom(path, LastIndexOf(path, '/') + 1)
  }

  /** A path cut at its last '/' into the parent folder and the last segment. */
  datatype Split = Split(parent: string, slug: string)

  /** The cut `createAppFolder` makes before POSTing `slug` to `parent`. */
  function SplitPath(path: string): (p: Split)
    ensures p.slug == FileName(path)
    ensures '/' in path ==> p.parent + "/" + p.slug == path
    ensures '/' !in path ==> p.parent == "" && p.slug == path
  {
    var split := LastIndexOf(path, '/');
    Split(PrefixOf(path, split), SuffixFrom(path, split + 1))
  }

  /** `base + "/" + name`, the join used to address a document in a folder. */
  function Join(base: string, name: string): (path: string)
    ensures '/' in path && |path| == |base| + |name| + 1
  {
    base + "/" + name
  }

  /** The last '/' of a joined path is the one the join inserted. */
  lemma {:induction false} LastSlashOfJoin(base: string, name: string)
    requires '/' !in name
    ensures LastIndexOf(Join(base, name), '/') == |base|
  {
    var path := Join(base, name);
    var r := LastIndexOf(path, '/');
    assert path[|base|] == '/';
    assert path[|base| + 1..] == name;
  }

  /** Splitting undoes joining a segment that has no '/'. */
  lemma {:induction false} SplitJoin(base: string, name: string)
    requires '/' !in name
    ensures SplitPath(Join(base, name)) == Split(base, name)
    ensures FileName(Join(base, name)) == name
  {
    LastSlashOfJoin(base, name);
    var path := Join(base, name);
    assert path[..|base|] == base;
    assert path[|base| + 1..] == name;
  }

  /** Joining undoes splitting a path that has a '/'. */
  lemma JoinSplit(path: string)
    requires '/' in path
    ensures Join(SplitPath(path).parent, SplitPath(path).slug) == path
  {
  }
}

=== FILE: search.dfy ===
/** First-match search, the shape of every `for ... of` loop with an early
    `return` in the library (and of the pod client's `getSubject`/`getRef`). */
module Search {
  import opened Outcomes

  /** Position of the first element of `xs` satisfying `p`, or `None`. */
  function FirstIndex<T>(xs: seq<T>, p: T -> bool): (r: Option<nat>)
    ensures r.None? <==> forall i :: 0 <= i < |xs| ==> !p(xs[i])
    ensures r.Some? ==> r.value < |xs| && p(xs[r.value])
    ensures r.Some? ==> forall j :: 0 <= j < r.value ==> !p(xs[j])
  {
    if |xs| == 0 then None
    else if p(xs[0]) then Some(0)
    else match FirstIndex(xs[1..], p)
      case None => None
      case Some(i) => Some(i + 1)
  }

  /** The first match is the only index that matches with no match before it. */
  lemma FirstIndexUnique<T>(xs: seq<T>, p: T -> bool, k: nat)
    requires k < |xs| && p(xs[k])
    requires forall j :: 0 <= j < k ==> !p(xs[j])
    ensures FirstIndex(xs, p) == Some(k)
  {
  }

  /** Appending elements never moves an existing first match; without one,
      the first match of the appended part is found, shifted. */
  lemma FirstIndexAppend<T>(xs: seq<T>, ys: seq<T>, p: T -> bool)
    ensures FirstIndex(xs, p).Some? ==> FirstIndex(xs + ys, p) == FirstIndex(xs, p)
    ensures FirstIndex(xs, p).None? && FirstIndex(ys, p).Some? ==>
              FirstIndex(xs + ys, p) == Some(|xs| + FirstIndex(ys, p).value)
    ensures FirstIndex(xs, p).None? && FirstIndex(ys, p).None? ==> FirstIndex(xs + ys, p).None?
  {
    if FirstIndex(xs, p).Some? {
      AppendKeepsMatch(xs, ys, p, FirstIndex(xs, p).value);
    } else {
      AppendShiftsMatch(xs, ys, p);
    }
  }

  /** A first match in `xs` stays the first match of `xs + ys`. */
  lemma AppendKeepsMatch<T>(xs: seq<T>, ys: seq<T>, p: T -> bool, k: nat)
    requires FirstIndex(xs, p) == Some(k)
    ensures FirstIndex(xs + ys, p) == Some(k)
  {
    var zs := xs + ys;
    forall j | 0 <= j < k
      ensures !p(zs[j])
    {
      assert zs[j] == xs[j];
    }
    assert zs[k] == xs[k];
    FirstIndexUnique(zs, p, k);
  }

  /** Without a match in `xs`, the matches of `xs + ys` are those of `ys`, shifted. */
  lemma AppendShiftsMatch<T>(xs: seq<T>, ys: seq<T>, p: T -> bool)
    requires FirstIndex(xs, p).None?
    ensures FirstIndex(ys, p).Some? ==> FirstIndex(xs + ys, p) == Some(|xs| + FirstIndex(ys, p).value)
    ensures FirstIndex(ys, p).None? ==> FirstIndex(xs + ys, p).None?
  {
    match FirstIndex(ys, p)
    case None => NoMatchInAppend(xs, ys, p);
    case Some(k) => ShiftedMatchInAppend(xs, ys, p, k);
  }

  /** Neither part matching, the whole does not match. */
  lemma NoMatchInAppend<T>(xs: seq<T>, ys: seq<T>, p: T -> bool)
    requires FirstIndex(xs, p).None? && FirstIndex(ys, p).None?
    ensures FirstIndex(xs + ys, p).None?
  {
    var zs := xs + ys;
    forall j | 0 <= j < |zs|
      ensures !p(zs[j])
    {
      if j < |xs| {
        assert zs[j] == xs[j];
      } else {
        assert zs[j] == ys[j - |xs|];
      }
    }
  }

  /** The first match `k` of `ys` is the first match `|xs| + k` of `xs + ys`
      when `xs` does not match. */
  lemma ShiftedMatchInAppend<T>(xs: seq<T>, ys: seq<T>, p: T -> bool, k: nat)
    requires FirstIndex(xs, p).None? && FirstIndex(ys, p) == Some(k)
    ensures FirstIndex(xs + ys, p) == Some(|xs| + k)
  {
    var zs := xs + ys;
    forall j | 0 <= j < |xs| + k
      ensures !p(zs[j])
    {
      if j < |xs| {
        assert zs[j] == xs[j];
      } else {
        assert zs[j] == ys[j - |xs|];
      }
    }
    assert zs[|xs| + k] == ys[k];
    FirstIndexUnique(zs, p, |xs| + k);
  }
}

=== FILE: solid_wrapper.dfy ===
/** The older variant in src/SolidWrapper.ts: `initializeDataFolder` resolves
    the fixed application `solidelections` from a profile subject, returns
    null instead of throwing when the profile names no type index, looks only
    at the first `TypeRegistration` of the index and always creates when that
    one does not match; `addDummyText` writes one sample document. */
module SolidWrapper {
  import opened Outcomes
  import opened Triples
  import opened Paths
  import opened AppStorage
  import opened StorageProperties

  const AppName := "solidelections"

  /** The location `initializeDataFolder` reuses: the first
      `TypeRegistration` of the index is `index#solidelections` and has a
      truthy `solid:instance` ref. */
  function FirstRegisteredLocation(index: Document): (r: Option<string>)
    ensures r.Some? <==> && FindSubject(index, TypeRegistration).Some?
                         && FindSubject(index, TypeRegistration).value.ref == AppRef(index, AppName)
                         && Truthy(GetRef(FindSubject(index, TypeRegistration).value, Instance))
    ensures r.Some? ==> r.value == GetRef(FindSubject(index, TypeRegistration).value, Instance).value
    ensures r.Some? ==> r.value != "" && Entry(Instance, Ref(r.value)) in Registrations(index)[0].entries
  {
    var appSubject := FindSubject(index, TypeRegistration);
    if appSubject.Some? && appSubject.value.ref == AppRef(index, AppName)
       && Truthy(GetRef(appSubject.value, Instance))
    then GetRef(appSubject.value, Instance)
    else None
  }

  /** `initializeDataFolder(profile)`; `Ok(None)` is its `null`. */
  function InitializeDataFolder(pod: Pod, profile: Subject, postAccepted: bool): (t: Transition<Option<Document>>)
    ensures t.result == Ok(None) <==> FetchPublicTypeIndex(pod, profile) == Ok(None)
    ensures t.result == Ok(None) ==> t.pod == pod
    ensures forall k :: k in pod ==> k in t.pod
  {
    match FetchPublicTypeIndex(pod, profile)
    case Err(e) => Transition(Err(e), pod)
    case Ok(None) => Transition(Ok(None), pod)
    case Ok(Some(index)) =>
      var location := FirstRegisteredLocation(index);
      if location.Some? then
        match Fetch(pod, location.value)
        case Err(e) => Transition(Err(e), pod)
        case Ok(folder) => Transition(Ok(Some(folder)), pod)
      else
        var created := CreateAppFolder(pod, DefaultPath(profile, AppName), postAccepted);
        match created.result
        case Err(e) => Transition(Err(e), created.pod)
        case Ok(container) =>
          Transition(Ok(Some(container)),
                     RegisterAppStorage(created.pod, index, AppName, container.ref))
  }

  /** Without a reusable first registration the folder is created at
      `storage + "public/solidelections"` (there is no opt-out) and a
      registration naming the fetched container's ref is saved into the
      index: its triples land on the node `index#solidelections`, which is
      added when the index has none. */
  lemma CreationRegistersContainer(pod: Pod, profile: Subject, postAccepted: bool, index: Document)
    requires FetchPublicTypeIndex(pod, profile) == Ok(Some(index))
    requires FirstRegisteredLocation(index).None?
    ensures var t := InitializeDataFolder(pod, profile, postAccepted);
            var path := DefaultPath(profile, AppName);
            && (postAccepted ==> t.result.Ok?)
            && (t.result.Err? ==> t == Transition(Err(FetchFailed(path)), pod))
            && (t.result.Ok? ==>
                  && t.result.value.Some?
                  && t.result.value.value.ref == path
                  && t.pod.Keys <= pod.Keys + {path}
                  && t.pod[index.ref] == Saved(index, Registration(index, AppName, path)).subjects
                  && GetSubject(t.pod[index.ref], AppRef(index, AppName))
                     == Combine(GetSubject(pod[index.ref], AppRef(index, AppName)), Registration(index, AppName, path))
                  && forall k :: k in pod && k != index.ref ==> t.pod[k] == pod[k])
  {
  }

  /** Only the first registration is looked at: an index whose first
      `TypeRegistration` is another application's makes
      `initializeDataFolder` create a container and write to the index,
      where `initAppStorage` reuses the later, usable registration without
      writing. The write adds triples to the existing node, so that node
      keeps its location and no registration is added. */
  lemma LaterRegistrationIsIgnored(pod: Pod, webId: string, profile: Subject, index: Document)
    requires LoadProfile(pod, webId) == Ok(profile)
    requires FetchPublicTypeIndex(pod, profile) == Ok(Some(index))
    requires FindSubject(index, TypeRegistration).Some?
    requires FindSubject(index, TypeRegistration).value.ref != AppRef(index, AppName)
    requires RegisteredLocation(index, AppName).Some?
    ensures InitAppStorage(pod, webId, AppName, true, true).pod == pod
    ensures var t := InitializeDataFolder(pod, profile, true);
            var after := Document(index.ref, t.pod[index.ref]);
            && t.pod != pod
            && RegisteredLocation(after, AppName) == RegisteredLocation(index, AppName)
            && |Registrations(after)| == |Registrations(index)|
  {
    var t := InitializeDataFolder(pod, profile, true);
    var path := DefaultPath(profile, AppName);
    var appRef := AppRef(index, AppName);
    CreationRegistersContainer(pod, profile, true, index);
    RegisteredInstanceStays(index, AppName, path);
    SavedRegistrationCount(index, AppName, path);
    assert |GetSubject(t.pod[index.ref], appRef).entries| > |GetSubject(pod[index.ref], appRef).entries|;
  }

  /** A reusable first registration is fetched and nothing is written. */
  lemma FirstRegistrationIsReused(pod: Pod, profile: Subject, postAccepted: bool, index: Document)
    requires FetchPublicTypeIndex(pod, profile) == Ok(Some(index))
    requires FirstRegisteredLocation(index).Some?
    ensures var t := InitializeDataFolder(pod, profile, postAccepted);
            var location := FirstRegisteredLocation(index).value;
            && t.pod == pod
            && (location in pod ==> t.result == Ok(Some(Document(location, pod[location]))))
            && (location !in pod ==> t.result == Err(FetchFailed(location)))
  {
  }

  /** The single person subject `addDummyText` writes. */
  function DummyPerson(personRef: string): Subject
  {
    Subject(personRef, {}, [Entry(FirstName, Ref("John")), Entry(LastName, Ref("Smith"))])
  }

  /** The dummy person reads back as John Smith under its own ref. */
  lemma DummyPersonReads(personRef: string)
    ensures DummyPerson(personRef).ref == personRef
    ensures GetRef(DummyPerson(personRef), FirstName) == Some("John")
    ensures GetRef(DummyPerson(personRef), LastName) == Some("Smith")
  {
    var person := DummyPerson(personRef);
    VocabularyDistinct();
    FirstObjectAt(person, FirstName, RefKind, 0);
    FirstObjectAt(person, LastName, RefKind, 1);
  }

  /** Where `addDummyText` writes: `container/dummyPerson.ttl`. */
  function DummyDocRef(container: Document): (docRef: string)
    ensures SplitPath(docRef) == Split(container.ref, "dummyPerson.ttl")
    ensures FileName(docRef) == "dummyPerson.ttl"
  {
    assert '/' !in "dummyPerson.ttl";
    CreateAppDocument(container, "dummyPerson.ttl").ref
  }

  /** `addDummyText(container)`: create `container/dummyPerson.ttl` holding a
      person named John Smith and save it; `personRef` is the ref the pod
      client generates for the new subject. */
  function AddDummyText(pod: Pod, container: Document, personRef: string): (p: Pod)
    ensures p.Keys == pod.Keys + {DummyDocRef(container)}
    ensures p[DummyDocRef(container)] == [DummyPerson(personRef)]
    ensures forall k :: k in pod && k != DummyDocRef(container) ==> p[k] == pod[k]
  {
    pod[DummyDocRef(container) := [DummyPerson(personRef)]]
  }
}

=== FILE: storage_properties.dfy ===
/** What the discovery-or-creation protocol and the listing helpers promise. */
module StorageProperties {
  import opened Outcomes
  import opened Search
  import opened Triples
  import opened Paths
  import opened AppStorage

  /** A usable registration short-circuits: the registered location is
      fetched, nothing is written, so calling again gives the same answer. */
  lemma ReuseRegisteredFolder(pod: Pod, webId: string, appName: string, initEmpty: bool,
                              postAccepted: bool, profile: Subject, index: Document)
    requires LoadProfile(pod, webId) == Ok(profile)
    requires FetchPublicTypeIndex(pod, profile) == Ok(Some(index))
    requires RegisteredLocation(index, appName).Some?
    ensures var t := InitAppStorage(pod, webId, appName, initEmpty, postAccepted);
            && t == Transition(Fetch(pod, RegisteredLocation(index, appName).value), pod)
            && InitAppStorage(t.pod, webId, appName, initEmpty, postAccepted) == t
  {
  }

  /** The call rejects with `TypeIndexMissing` exactly when the profile has no
      (truthy) `solid:publicTypeIndex` ref, and then the pod is unchanged. */
  lemma MissingTypeIndexRejects(pod: Pod, webId: string, appName: string, initEmpty: bool,
                                postAccepted: bool, profile: Subject)
    requires LoadProfile(pod, webId) == Ok(profile)
    ensures var t := InitAppStorage(pod, webId, appName, initEmpty, postAccepted);
            && (t.result == Err(TypeIndexMissing) <==> !Truthy(GetRef(profile, PublicTypeIndex)))
            && (t.result == Err(TypeIndexMissing) ==> t.pod == pod)
  {
  }

  /** Without a usable registration and with creation disallowed the call
      rejects before any POST or index write. */
  lemma DisallowedCreationRejects(pod: Pod, webId: string, appName: string, postAccepted: bool,
                                  profile: Subject, index: Document)
    requires LoadProfile(pod, webId) == Ok(profile)
    requires FetchPublicTypeIndex(pod, profile) == Ok(Some(index))
    requires RegisteredLocation(index, appName).None?
    ensures InitAppStorage(pod, webId, appName, false, postAccepted) == Transition(Err(AppFolderMissing), pod)
  {
  }

  /** The index once `reg`'s triples have been saved to it. */
  function Saved(index: Document, reg: Subject): Document
  {
    Document(index.ref, Merge(index.subjects, reg))
  }

  /** Without a usable registration and with creation allowed, the container
      is made at `storage + "public/" + appName` and the registration naming
      it is saved into the index (onto the node `index#appName` when there is
      one); nothing else changes. When the container cannot be fetched
      afterwards, nothing at all changes. */
  lemma CreationSavesRegistration(pod: Pod, webId: string, appName: string, postAccepted: bool,
                                  profile: Subject, index: Document)
    requires LoadProfile(pod, webId) == Ok(profile)
    requires FetchPublicTypeIndex(pod, profile) == Ok(Some(index))
    requires RegisteredLocation(index, appName).None?
    ensures var t := InitAppStorage(pod, webId, appName, true, postAccepted);
            var path := DefaultPath(profile, appName);
            && (postAccepted ==> t.result.Ok?)
            && (t.result.Err? ==> t == Transition(Err(FetchFailed(path)), pod))
            && (t.result.Ok? ==>
                  && t.result.value.ref == path
                  && t.pod.Keys <= pod.Keys + {path}
                  && index.ref in pod
                  && t.pod[index.ref] == Saved(index, Registration(index, appName, path)).subjects
                  && forall k :: k in pod && k != index.ref ==> t.pod[k] == pod[k])
  {
  }

  /** In an index that names each node once, the registration
      `findAppSubject` finds is the node `index#appName`. */
  lemma FoundIsNamed(index: Document, appName: string)
    requires DistinctRefs(index.subjects)
    requires FindAppSubject(index, appName).Some?
    ensures FindAppSubject(index, appName).value == GetSubject(index.subjects, AppRef(index, appName))
  {
    NamedSubjectIsUnique(index.subjects, FindAppSubject(index, appName).value);
  }

  /** After a save, `findAppSubject` finds the node `index#appName` with the
      registration's triples added to whatever it held before. */
  lemma SavedRegistrationIsFound(index: Document, appName: string, path: string)
    requires DistinctRefs(index.subjects)
    ensures var reg := Registration(index, appName, path);
            FindAppSubject(Saved(index, reg), appName)
              == Some(Combine(GetSubject(index.subjects, AppRef(index, appName)), reg))
  {
    var reg := Registration(index, appName, path);
    var saved := Saved(index, reg);
    var node := GetSubject(saved.subjects, AppRef(index, appName));
    assert TypeRegistration in node.types;
    assert node in saved.subjects;
    FoundIsNamed(saved, appName);
  }

  /** The location a saved registration yields: the node's own instance ref
      when it had one (usable only if truthy), otherwise the saved path. */
  lemma SavedRegistrationLocation(index: Document, appName: string, path: string)
    requires DistinctRefs(index.subjects)
    ensures var prior := GetRef(GetSubject(index.subjects, AppRef(index, appName)), Instance);
            var location := RegisteredLocation(Saved(index, Registration(index, appName, path)), appName);
            && (prior.Some? ==> location == if prior.value != "" then prior else None)
            && (prior.None? ==> location == if path != "" then Some(path) else None)
  {
    var reg := Registration(index, appName, path);
    SavedRegistrationIsFound(index, appName, path);
    GetRefCombine(GetSubject(index.subjects, AppRef(index, appName)), reg, Instance);
  }

  /** Saving a registration never moves a usable one: the location an index
      already yields for `appName` is the one it yields afterwards. */
  lemma RegisteredInstanceStays(index: Document, appName: string, path: string)
    requires DistinctRefs(index.subjects)
    requires RegisteredLocation(index, appName).Some?
    ensures RegisteredLocation(Saved(index, Registration(index, appName, path)), appName)
            == RegisteredLocation(index, appName)
  {
    FoundIsNamed(index, appName);
    SavedRegistrationLocation(index, appName, path);
  }

  /** Saving a registration adds a `TypeRegistration` subject exactly when
      `findAppSubject` found none before; otherwise the count stays. */
  lemma SavedRegistrationCount(index: Document, appName: string, path: string)
    requires DistinctRefs(index.subjects)
    ensures var reg := Registration(index, appName, path);
            |Registrations(Saved(index, reg))|
              == |Registrations(index)| + (if FindAppSubject(index, appName).None? then 1 else 0)
  {
    var reg := Registration(index, appName, path);
    var appRef := AppRef(index, appName);
    match SubjectAt(index.subjects, appRef)
    case None =>
      SubjectsOfTypeAppend(index.subjects, [reg], TypeRegistration);
    case Some(i) =>
      var node := index.subjects[i];
      TypedCountUpdate(index.subjects, i, Combine(node, reg), TypeRegistration);
      assert node in index.subjects;
      if FindAppSubject(index, appName).Some? {
        FoundIsNamed(index, appName);
        NamedSubjectIsUnique(index.subjects, node);
      }
  }

  /** After a successful creation the profile reads back unchanged and the
      type index reads back with the registration saved into it. */
  lemma CreationIsVisible(pod: Pod, webId: string, appName: string, postAccepted: bool,
                          profile: Subject, index: Document)
    requires LoadProfile(pod, webId) == Ok(profile)
    requires FetchPublicTypeIndex(pod, profile) == Ok(Some(index))
    requires RegisteredLocation(index, appName).None?
    requires InitAppStorage(pod, webId, appName, true, postAccepted).result.Ok?
    ensures var first := InitAppStorage(pod, webId, appName, true, postAccepted);
            var reg := Registration(index, appName, DefaultPath(profile, appName));
            && LoadProfile(first.pod, webId) == Ok(profile)
            && FetchPublicTypeIndex(first.pod, profile) == Ok(Some(Saved(index, reg)))
            && DefaultPath(profile, appName) in first.pod
  {
    var first := InitAppStorage(pod, webId, appName, true, postAccepted);
    var reg := Registration(index, appName, DefaultPath(profile, appName));
    CreationSavesRegistration(pod, webId, appName, postAccepted, profile, index);
    assert first.pod[index.ref] == Merge(pod[index.ref], reg);
    assert webId in pod && webId in first.pod;
    if webId == index.ref {
      assert |reg.ref| > |index.ref|;
      assert GetSubject(first.pod[webId], webId) == GetSubject(pod[webId], webId);
    } else {
      assert first.pod[webId] == pod[webId];
    }
    assert Fetch(first.pod, index.ref) == Ok(Saved(index, reg));
  }

  /** Once the node `index#appName` carries no `solid:instance` ref, a
      successful creation is found again by any later call (even one that
      may not create): same location, and no further write. */
  lemma CreatedFolderIsRediscovered(pod: Pod, webId: string, appName: string, postAccepted: bool,
                                    initEmpty2: bool, postAccepted2: bool,
                                    profile: Subject, index: Document)
    requires LoadProfile(pod, webId) == Ok(profile)
    requires FetchPublicTypeIndex(pod, profile) == Ok(Some(index))
    requires GetRef(GetSubject(index.subjects, AppRef(index, appName)), Instance).None?
    requires InitAppStorage(pod, webId, appName, true, postAccepted).result.Ok?
    ensures var first := InitAppStorage(pod, webId, appName, true, postAccepted);
            var second := InitAppStorage(first.pod, webId, appName, initEmpty2, postAccepted2);
            && second.pod == first.pod
            && second.result.Ok?
            && second.result.value.ref == first.result.value.ref
  {
    var path := DefaultPath(profile, appName);
    var reg := Registration(index, appName, path);
    if FindAppSubject(index, appName).Some? {
      FoundIsNamed(index, appName);
    }
    var first := InitAppStorage(pod, webId, appName, true, postAccepted);
    CreationSavesRegistration(pod, webId, appName, postAccepted, profile, index);
    CreationIsVisible(pod, webId, appName, postAccepted, profile, index);
    SavedRegistrationLocation(index, appName, path);
    ReuseRegisteredFolder(first.pod, webId, appName, initEmpty2, postAccepted2, profile, Saved(index, reg));
  }

  /** A registration `index#appName` without a `solid:instance` ref is
      repaired by the first creating call: the instance triple is added to
      that node, no second registration appears, and every later call reuses
      the new container without writing. */
  lemma StaleRegistrationIsRepaired(pod: Pod, webId: string, appName: string, postAccepted: bool,
                                    initEmpty2: bool, postAccepted2: bool,
                                    profile: Subject, index: Document)
    requires LoadProfile(pod, webId) == Ok(profile)
    requires FetchPublicTypeIndex(pod, profile) == Ok(Some(index))
    requires FindAppSubject(index, appName).Some?
    requires GetRef(FindAppSubject(index, appName).value, Instance).None?
    requires InitAppStorage(pod, webId, appName, true, postAccepted).result.Ok?
    ensures var first := InitAppStorage(pod, webId, appName, true, postAccepted);
            var second := InitAppStorage(first.pod, webId, appName, initEmpty2, postAccepted2);
            && first.result.value.ref == DefaultPath(profile, appName)
            && |Registrations(Document(index.ref, first.pod[index.ref]))| == |Registrations(index)|
            && second.pod == first.pod
            && second.result.Ok?
            && second.result.value.ref == DefaultPath(profile, appName)
  {
    var path := DefaultPath(profile, appName);
    FoundIsNamed(index, appName);
    CreationSavesRegistration(pod, webId, appName, postAccepted, profile, index);
    SavedRegistrationCount(index, appName, path);
    CreatedFolderIsRediscovered(pod, webId, appName, postAccepted, initEmpty2, postAccepted2, profile, index);
  }

  /** src/index.ts's `listDocuments` keeps each resource's file name and roots
      it at the storage: entry `i` splits into the storage ref and the file
      name of the `i`-th resource ref that src/appStorage.ts returns. */
  lemma ListDocumentsRebases(storage: Document)
    ensures var docs := ListDocuments(storage);
            var refs := ListDocumentRefs(storage);
            && |docs| == |refs|
            && forall i :: 0 <= i < |docs| ==>
                 && SplitPath(docs[i]) == Split(storage.ref, FileName(refs[i]))
                 && FileName(docs[i]) == FileName(refs[i])
  {
    var docs := ListDocuments(storage);
    var refs := ListDocumentRefs(storage);
    forall i | 0 <= i < |docs|
      ensures SplitPath(docs[i]) == Split(storage.ref, FileName(refs[i]))
      ensures FileName(docs[i]) == FileName(refs[i])
    {
      SplitJoin(storage.ref, FileName(refs[i]));
    }
  }

  /** When every resource already sits directly in the storage, re-basing is
      the identity: both variants of `listDocuments` agree. */
  lemma RootedListingsAgree(storage: Document)
    requires forall s :: s in storage.subjects && Resource in s.types ==>
               '/' in s.ref && SplitPath(s.ref).parent == storage.ref
    ensures ListDocuments(storage) == ListDocumentRefs(storage)
  {
    var docs := ListDocuments(storage);
    var refs := ListDocumentRefs(storage);
    var resources := SubjectsOfType(storage.subjects, Resource);
    forall i | 0 <= i < |docs|
      ensures docs[i] == refs[i]
    {
      assert resources[i] in resources;
      JoinSplit(refs[i]);
    }
  }
}

=== FILE: triples.dfy ===
/** The slice of the `tripledoc` pod client the library relies on, as pure
    functions over an immutable pod. A pod maps each document URI to the
    subjects the document holds; fetching a document is a lookup and saving
    one is a map update. A subject keeps its `rdf:type` values as a set and
    every other triple as an ordered predicate/object entry. */
module Triples {
  import opened Outcomes
  import opened Search

  // Vocabulary URIs of `rdf-namespaces`, used as opaque, distinct constants.
  const TypeRegistration := "http://www.w3.org/ns/solid/terms#TypeRegistration"
  const Instance := "http://www.w3.org/ns/solid/terms#instance"
  const ForClass := "http://www.w3.org/ns/solid/terms#forClass"
  const PublicTypeIndex := "http://www.w3.org/ns/solid/terms#publicTypeIndex"
  const Storage := "http://www.w3.org/ns/pim/space#storage"
  const Resource := "http://www.w3.org/ns/ldp#Resource"
  const BuyAction := "http://schema.org/BuyAction"
  const DonateAction := "http://schema.org/DonateAction"
  const Agent := "http://schema.org/agent"
  const Identifier := "http://schema.org/identifier"
  const Description := "http://schema.org/description"
  const Price := "http://schema.org/price"
  const PriceCurrency := "http://schema.org/priceCurrency"
  const FirstName := "http://xmlns.com/foaf/0.1/firstName"
  const LastName := "http://xmlns.com/foaf/0.1/lastName"

  /** The vocabulary URIs the model tells apart are distinct; each pair
      differs at the first character after the shared namespace, or in
      length. */
  lemma VocabularyDistinct()
    ensures Instance != ForClass
    ensures BuyAction != DonateAction
    ensures FirstName != LastName
    ensures Agent != Identifier && Agent != Description && Agent != Price && Agent != PriceCurrency
    ensures Identifier != Description && Identifier != Price && Identifier != PriceCurrency
    ensures Description != Price && Description != PriceCurrency && Price != PriceCurrency
  {
    assert Instance[33] != ForClass[33];
    assert BuyAction[18] != DonateAction[18];
    assert FirstName[26] != LastName[26];
    assert Agent[18] != Identifier[18] && Agent[18] != Description[18];
    assert Agent[18] != Price[18] && Agent[18] != PriceCurrency[18];
    assert Identifier[18] != Description[18] && Identifier[18] != Price[18] && Identifier[18] != PriceCurrency[18];
    assert Description[18] != Price[18] && Description[18] != PriceCurrency[18];
    assert |Price| != |PriceCurrency|;
  }

  /** The object of a triple: a named node, a string literal or an integer literal. */
  datatype Value = Ref(uri: string) | Str(text: string) | Int(number: int)

  datatype Kind = RefKind | StrKind | IntKind

  function KindOf(v: Value): Kind
  {
    match v
    case Ref(_) => RefKind
    case Str(_) => StrKind
    case Int(_) => IntKind
  }

  datatype Entry = Entry(pred: string, obj: Value)

  datatype Subject = Subject(ref: string, types: set<string>, entries: seq<Entry>)

  /** A fetched (or locally created) document: its URI and its subjects in
      the order the pod client enumerates them. */
  datatype Document = Document(ref: string, subjects: seq<Subject>)

  /** An RDF document names each node once: no two subjects share a ref. */
  predicate DistinctRefs(subjects: seq<Subject>)
  {
    forall i, j :: 0 <= i < j < |subjects| ==> subjects[i].ref != subjects[j].ref
  }

  /** A pod maps each document URI to the subjects stored there. */
  type Pod = p: map<string, seq<Subject>> | forall uri :: uri in p ==> DistinctRefs(p[uri])
    witness map[]

  /** What an operation on the pod produces: its outcome and the pod after it. */
  datatype Transition<+T> = Transition(result: Result<T>, pod: Pod)

  /** A subject with no triples, what `getSubject` hands back for an unknown URI. */
  function EmptySubject(uri: string): Subject
  {
    Subject(uri, {}, [])
  }

  /** The first object of kind `kind` stored under `pred`: what
      `getRef`, `getString` and `getInteger` read. */
  function FirstObject(s: Subject, pred: string, kind: Kind): (r: Option<Value>)
    ensures r.Some? ==> KindOf(r.value) == kind && Entry(pred, r.value) in s.entries
    ensures r.None? <==> forall e :: e in s.entries && e.pred == pred ==> KindOf(e.obj) != kind
  {
    match FirstIndex(s.entries, (e: Entry) => e.pred == pred && KindOf(e.obj) == kind)
    case None => None
    case Some(i) => Some(s.entries[i].obj)
  }

  /** `subject.getRef(pred)`; `None` stands for `null`. */
  function GetRef(s: Subject, pred: string): (r: Option<string>)
    ensures r.Some? ==> Entry(pred, Ref(r.value)) in s.entries
    ensures r.None? <==> forall e :: e in s.entries && e.pred == pred ==> !e.obj.Ref?
  {
    match FirstObject(s, pred, RefKind)
    case Some(Ref(u)) => Some(u)
    case _ => None
  }

  /** `subject.getString(pred)`; `None` stands for `null`. */
  function GetString(s: Subject, pred: string): (r: Option<string>)
    ensures r.Some? ==> Entry(pred, Str(r.value)) in s.entries
    ensures r.None? <==> forall e :: e in s.entries && e.pred == pred ==> !e.obj.Str?
  {
    match FirstObject(s, pred, StrKind)
    case Some(Str(t)) => Some(t)
    case _ => None
  }

  /** `subject.getInteger(pred)`; `None` stands for `null`. */
  function GetInteger(s: Subject, pred: string): (r: Option<int>)
    ensures r.Some? ==> Entry(pred, Int(r.value)) in s.entries
    ensures r.None? <==> forall e :: e in s.entries && e.pred == pred ==> !e.obj.Int?
  {
    match FirstObject(s, pred, IntKind)
    case Some(Int(n)) => Some(n)
    case _ => None
  }

  /** Position of the first subject named `uri`, or `None`. */
  function SubjectAt(subjects: seq<Subject>, uri: string): (r: Option<nat>)
    ensures r.None? <==> forall t :: t in subjects ==> t.ref != uri
    ensures r.Some? ==> r.value < |subjects| && subjects[r.value].ref == uri
    ensures r.Some? ==> forall j :: 0 <= j < r.value ==> subjects[j].ref != uri
  {
    var r := FirstIndex(subjects, (t: Subject) => t.ref == uri);
    if r.None? then
      assert forall t :: t in subjects ==> t.ref != uri by {
        forall t | t in subjects ensures t.ref != uri {
          var i :| 0 <= i < |subjects| && subjects[i] == t;
        }
      }
      r
    else r
  }

  /** `doc.getSubject(uri)` on a document holding `subjects`: the first
      subject named `uri`, or an empty one. */
  function GetSubject(subjects: seq<Subject>, uri: string): (s: Subject)
    ensures s.ref == uri
    ensures s in subjects || (s == EmptySubject(uri) && forall t :: t in subjects ==> t.ref != uri)
  {
    match SubjectAt(subjects, uri)
    case None => EmptySubject(uri)
    case Some(i) => subjects[i]
  }

  /** In a document that names each node once, a subject carrying `uri` is
      the one `getSubject(uri)` returns. */
  lemma NamedSubjectIsUnique(subjects: seq<Subject>, s: Subject)
    requires DistinctRefs(subjects)
    requires s in subjects
    ensures GetSubject(subjects, s.ref) == s
  {
    var k :| 0 <= k < |subjects| && subjects[k] == s;
    var i := SubjectAt(subjects, s.ref).value;
    assert !(i < k) && !(k < i);
  }

  /** The triples of `extra` added to the node `node`: the types join and
      the entries follow the ones already there. */
  function Combine(node: Subject, extra: Subject): Subject
  {
    Subject(node.ref, node.types + extra.types, node.entries + extra.entries)
  }

  /** Adding a subject's triples to a document: the node of that name, if the
      document has one, gains them in place; otherwise the subject is added
      at the end. */
  function Merge(subjects: seq<Subject>, s: Subject): (r: seq<Subject>)
    ensures GetSubject(r, s.ref) == Combine(GetSubject(subjects, s.ref), s)
    ensures forall uri :: uri != s.ref ==> GetSubject(r, uri) == GetSubject(subjects, uri)
    ensures (forall t :: t in subjects ==> t.ref != s.ref) ==> r == subjects + [s]
    ensures SubjectAt(subjects, s.ref).Some? ==>
              var i := SubjectAt(subjects, s.ref).value;
              r == subjects[i := Combine(subjects[i], s)]
    ensures DistinctRefs(subjects) ==> DistinctRefs(r)
  {
    match SubjectAt(subjects, s.ref)
    case None =>
      var r := subjects + [s];
      assert SubjectAt(r, s.ref) == Some(|subjects|);
      forall uri | uri != s.ref
        ensures GetSubject(r, uri) == GetSubject(subjects, uri)
      {
        SubjectAtAppend(subjects, s, uri);
      }
      r
    case Some(i) =>
      var r := subjects[i := Combine(subjects[i], s)];
      assert r[i] in r;
      var m := SubjectAt(r, s.ref);
      assert m.Some? && !(m.value < i) && !(i < m.value);
      forall uri | uri != s.ref
        ensures GetSubject(r, uri) == GetSubject(subjects, uri)
      {
        SubjectAtUpdate(subjects, i, Combine(subjects[i], s), uri);
      }
      r
  }

  /** Appending a subject named otherwise keeps the first subject named `uri`. */
  lemma SubjectAtAppend(subjects: seq<Subject>, s: Subject, uri: string)
    requires s.ref != uri
    ensures SubjectAt(subjects + [s], uri) == SubjectAt(subjects, uri)
  {
    var r := subjects + [s];
    match SubjectAt(subjects, uri)
    case None =>
      forall t | t in r ensures t.ref != uri {
        if t != s { assert t in subjects; }
      }
    case Some(k) =>
      var m := SubjectAt(r, uri);
      assert r[k] == subjects[k];
      assert m.Some?;
      assert !(m.value < k) && !(k < m.value);
  }

  /** Replacing a subject by one of the same name keeps the position of the
      first subject named `uri`, for every other `uri`. */
  lemma SubjectAtUpdate(subjects: seq<Subject>, i: nat, x: Subject, uri: string)
    requires i < |subjects| && x.ref == subjects[i].ref && x.ref != uri
    ensures SubjectAt(subjects[i := x], uri) == SubjectAt(subjects, uri)
  {
    var r := subjects[i := x];
    match SubjectAt(subjects, uri)
    case None =>
      forall t | t in r ensures t.ref != uri {
        var k :| 0 <= k < |r| && r[k] == t;
        if k != i { assert subjects[k] in subjects; }
      }
    case Some(k) =>
      var m := SubjectAt(r, uri);
      assert r[k] == subjects[k];
      assert m.Some?;
      assert !(m.value < k) && !(k < m.value);
  }

  /** `s` alone if it is typed `t`, nothing otherwise. */
  function IfTyped(s: Subject, t: string): seq<Subject>
  {
    if t in s.types then [s] else []
  }

  /** `findSubjects(rdf.type, t)` / `getAllSubjectsOfType(t)`: the subjects
      typed `t`, in enumeration order. */
  function SubjectsOfType(subjects: seq<Subject>, t: string): (r: seq<Subject>)
    ensures |r| <= |subjects|
    ensures forall s :: s in r <==> s in subjects && t in s.types
  {
    if |subjects| == 0 then []
    else IfTyped(subjects[0], t) + SubjectsOfType(subjects[1..], t)
  }

  /** `findSubject(rdf.type, t)`: the first subject typed `t`, or `None`. */
  function FindSubject(doc: Document, t: string): (r: Option<Subject>)
    ensures r.None? <==> forall s :: s in doc.subjects ==> t !in s.types
    ensures r.Some? ==> r.value == SubjectsOfType(doc.subjects, t)[0]
  {
    var typed := SubjectsOfType(doc.subjects, t);
    if |typed| == 0 then None
    else assert typed[0] in typed; Some(typed[0])
  }

  /** `fetchDocument(uri)`: the stored document, or a rejection. */
  function Fetch(pod: Pod, uri: string): (r: Result<Document>)
    ensures r.Ok? <==> uri in pod
    ensures r.Ok? ==> r.value.ref == uri && r.value.subjects == pod[uri]
    ensures r.Err? ==> r.error == FetchFailed(uri)
  {
    if uri in pod then Ok(Document(uri, pod[uri])) else Err(FetchFailed(uri))
  }

  /** `doc.addSubject(...)`, `addRef`s, then `doc.save([s])`: the triples
      of `s` are added to what the pod stores for the document, on the node
      named `s.ref` if there is one. */
  function SaveSubject(pod: Pod, docRef: string, s: Subject): (p: Pod)
    ensures p.Keys == pod.Keys + {docRef}
    ensures p[docRef] == Merge(if docRef in pod then pod[docRef] else [], s)
    ensures forall k :: k in pod && k != docRef ==> p[k] == pod[k]
  {
    pod[docRef := Merge(if docRef in pod then pod[docRef] else [], s)]
  }

  /** Replacing one subject changes the number of subjects typed `t` only
      by what the old and the new subject contribute. */
  lemma TypedCountUpdate(subjects: seq<Subject>, i: nat, x: Subject, t: string)
    requires i < |subjects|
    ensures |SubjectsOfType(subjects[i := x], t)| + (if t in subjects[i].types then 1 else 0)
            == |SubjectsOfType(subjects, t)| + (if t in x.types then 1 else 0)
  {
    var before, after := subjects[..i], subjects[i + 1..];
    assert subjects == before + ([subjects[i]] + after);
    assert subjects[i := x] == before + ([x] + after);
    SubjectsOfTypeAppend(before, [subjects[i]] + after, t);
    SubjectsOfTypeAppend([subjects[i]], after, t);
    SubjectsOfTypeAppend(before, [x] + after, t);
    SubjectsOfTypeAppend([x], after, t);
    assert [subjects[i]][1..] == [] && [x][1..] == [];
  }

  /** A merged node reads its own first object under `pred`, and the added
      triples' first object only when it had none. */
  lemma FirstObjectCombine(node: Subject, extra: Subject, pred: string, kind: Kind)
    ensures FirstObject(Combine(node, extra), pred, kind)
            == if FirstObject(node, pred, kind).Some? then FirstObject(node, pred, kind)
               else FirstObject(extra, pred, kind)
  {
    FirstIndexAppend(node.entries, extra.entries, (e: Entry) => e.pred == pred && KindOf(e.obj) == kind);
  }

  /** `getRef` on a merged node: the node's own ref under `pred` if it has
      one, otherwise the added triples' one. */
  lemma GetRefCombine(node: Subject, extra: Subject, pred: string)
    ensures GetRef(Combine(node, extra), pred)
            == if GetRef(node, pred).Some? then GetRef(node, pred) else GetRef(extra, pred)
  {
    FirstObjectCombine(node, extra, pred, RefKind);
  }

  /** The first entry of kind `kind` under `pred` is the one read. */
  lemma FirstObjectAt(s: Subject, pred: string, kind: Kind, i: nat)
    requires i < |s.entries| && s.entries[i].pred == pred && KindOf(s.entries[i].obj) == kind
    requires forall j :: 0 <= j < i ==> !(s.entries[j].pred == pred && KindOf(s.entries[j].obj) == kind)
    ensures FirstObject(s, pred, kind) == Some(s.entries[i].obj)
  {
    FirstIndexUnique(s.entries, (e: Entry) => e.pred == pred && KindOf(e.obj) == kind, i);
  }

  /** Typed subjects of a concatenation are the typed subjects of each part. */
  lemma {:induction false} SubjectsOfTypeAppend(a: seq<Subject>, b: seq<Subject>, t: string)
    ensures SubjectsOfType(a + b, t) == SubjectsOfType(a, t) + SubjectsOfType(b, t)
  {
    if |a| == 0 {
      assert a + b == b;
    } else {
      assert (a + b)[1..] == a[1..] + b;
      SubjectsOfTypeAppend(a[1..], b, t);
    }
  }
}
